=== FILE: README.md ===
# STDE core, modelled in Dafny

STDE (Software Test Document Evaluator) is a web application. Students upload software test
documents, an AI service scores them on four dimensions, and teachers review the scores and may
override them. This project models the core of the application as pure Dafny functions over
immutable data, and proves properties of that model.

On the frontend side, the model covers:
- the browser-side authentication service (`authService.js`): what it writes to local storage
  and what it reads back from it;
- the route guard (`ProtectedRoute.jsx`);
- the submit handlers of the three login pages and the two registration pages;
- the AI evaluation page (`AIEvaluate.jsx`): file intake checks, upload and delete, running and
  fetching evaluations, classifying errors, choosing error styles, and the average-score tile.

On the backend side, it covers:
- `EvaluationService`: the hourly quota, usage statistics, the evaluation pipeline with its
  cache and error rewrapping, teacher overrides, and read authorisation;
- `EvaluationController`: how service exceptions become HTTP replies;
- `OAuth2LoginSuccessHandler`: cookie scanning, the link-mode block, the role gate, account
  creation and update, and the callback redirect.

Effects are modelled as data:
- Local storage is a `map<string, string>`.
- An HTTP round trip is a `Reply` parameter: a success value, or a failure with an optional
  server message.
- A Java exception is a class tag with an optional message.
- Repository lookups, the AI answer, the content classifier and the clock are parameters.
- The stored user record is a JSON-like text. A decoder is proved to invert it
  (`UserJson.DecodeEncode`).

Files:
- `wrappers.dfy`: Option, Result, Reply, Attempt, and JavaScript truthiness (`||`).
- `strings.dfy`: the string operations the code relies on, with their lemmas: `startsWith`,
  `includes`/`contains`, the first-occurrence `replace` of JavaScript, the replace-all `replace` of
  Java, `split`/`join`, ASCII `toLowerCase`, and decimal rendering.
- `user_json.dfy`: roles, and the user record encoding and decoding.
- `auth_service.dfy`, `protected_route.dfy`, `login_pages.dfy`, `register_pages.dfy`,
  `ai_evaluate.dfy`: the frontend.
- `evaluation_service.dfy`, `evaluation_controller.dfy`, `oauth_success.dfy`: the backend.

## Model

| member | source | states |
|---|---|---|
| Roles.Name | backend/src/main/java/citu/stde/security/OAuth2LoginSuccessHandler.java:115 | The enum name of every role reads back as that role and contains no character JSON must escape |
| UserJson.ReadQuotedRoundTrip | frontend/stde-app/src/services/authService.js:38 | Reading back a quoted, escaped string literal yields exactly the original text and leaves what follows untouched |
| UserJson.DecodeEncode | frontend/stde-app/src/services/authService.js:58-61 | Parsing the stored text of any user record gives back that same record (`JSON.parse` inverts `JSON.stringify`) |
| UserJson.EncodeNotSentinel | frontend/stde-app/src/services/authService.js:59-60 | A stored user record is never empty, never `null` and never `undefined`, so `getCurrentUser` always parses it |
| AuthService.Login | frontend/stde-app/src/services/authService.js:29-44 | Both keys are written only when the token is truthy, otherwise storage is untouched; a failure throws the server message or 'Login failed'; other keys never change |
| AuthService.Logout | frontend/stde-app/src/services/authService.js:50-53 | Exactly the token and user keys are removed and every other entry keeps its value |
| AuthService.GetCurrentUser | frontend/stde-app/src/services/authService.js:58-61 | A missing, empty or "null" stored user reads as no user; other text throws exactly when it does not decode as an encoded user record; a user read back is the one the stored text decodes to |
| AuthService.IsAuthenticated | frontend/stde-app/src/services/authService.js:67-69 | True exactly when a token is stored and the stored text is non-empty, as `!!` does for a string |
| AuthService.GetUserType | frontend/stde-app/src/services/authService.js:71-74 | Throws exactly when reading the current user throws, and is null exactly when there is no user or the user has no type |
| AuthService.LoginThenCurrentUser | frontend/stde-app/src/services/authService.js:36-39 | After a login answered with a token and a user, the session is authenticated and reads back that user and that user's type |
| AuthService.LoginWithoutUserBreaksRead | frontend/stde-app/src/services/authService.js:36-38 | An answer with a token but no `user` field stores the text `undefined`, which makes every later read of the current user throw |
| AuthService.LogoutClears | frontend/stde-app/src/services/authService.js:50-74 | After logout nobody is authenticated, there is no current user and no user type, and a second logout changes nothing |
| AuthService.AuthenticationIgnoresUser | frontend/stde-app/src/services/authService.js:67-69 | Whether someone is authenticated depends on the token alone, whatever is stored under the user key |
| AuthService.Field | frontend/stde-app/src/services/authService.js:12-15 | A field read from the caller's object is present exactly when the key is present, and then carries that key's value |
| AuthService.Register | frontend/stde-app/src/services/authService.js:8-24 | The payload carries the five named fields, defaults the type to STUDENT and sends no avatar; a failure throws the server message or 'Registration failed' |
| AuthService.RegisterReadsOnlyFiveFields | frontend/stde-app/src/services/authService.js:10-18 | Two caller objects that agree on the five read keys produce the same payload, whatever other keys they carry |
| AuthService.UpdateProfile | frontend/stde-app/src/services/authService.js:79-95 | The token is never touched. An answer with a user stores it so that it reads back, and resolves to that user. An answer without a user leaves storage alone and resolves to the whole body. A failure throws the server error or the fallback |
| ProtectedRoute.Guard | frontend/stde-app/src/components/ProtectedRoute.jsx:4-21 | Rendering throws exactly when the stored user does not decode as an encoded user record; the route renders exactly for an authenticated, known user whose role is listed or when no list is given; otherwise it redirects to one of three pages |
| ProtectedRoute.UnlistedRoleRedirects | frontend/stde-app/src/components/ProtectedRoute.jsx:13-17 | A signed-in user whose role is not listed goes to their own home page, or to the login page when the role is neither student nor teacher |
| ProtectedRoute.EmptyListDeniesEveryone | frontend/stde-app/src/components/ProtectedRoute.jsx:13 | An empty role list is truthy in JavaScript and therefore turns every signed-in user away |
| ProtectedRoute.AbsentListAdmitsAnyUser | frontend/stde-app/src/components/ProtectedRoute.jsx:13-20 | Without a role list, every authenticated user with a stored record gets through |
| ProtectedRoute.TeacherOnStudentRoute | frontend/stde-app/src/components/ProtectedRoute.jsx:14-16 | A teacher who has just logged in is sent from a student-only route to the teacher home page |
| ProtectedRoute.LoggedOutGoesToLogin | frontend/stde-app/src/components/ProtectedRoute.jsx:8-10 | After logout, every guarded route redirects to the login page |
| LoginPages.InitialError | frontend/stde-app/src/pages/StudentLogin.jsx:16 | The initial error text is the `error` query parameter when it is non-empty, and empty otherwise |
| LoginPages.StudentLoginSubmit | frontend/stde-app/src/pages/StudentLogin.jsx:24-51 | A failure shows the credentials message and changes nothing; a non-student is logged out and shown the student-only message; navigation to the dashboard happens exactly for a student, whose record then reads back; the token is then the answer's token when that is truthy, and otherwise whatever token was stored before |
| LoginPages.TeacherLoginSubmit | frontend/stde-app/src/pages/TeacherLogin.jsx:14-43 | A missing user lands in the catch; a non-teacher sees the teacher-only message but stays signed in; navigation happens exactly for a teacher, and the token text is stored even when absent |
| LoginPages.LegacyLoginSubmit | frontend/stde-app/src/pages/Login.jsx:14-49 | Navigation to the student home happens exactly for a student, whose record then reads back; the token is then the answer's token when that is truthy, and otherwise whatever token was stored before; a mismatch shows its message and keeps whatever login wrote |
| LoginPages.MismatchLogoutDiffers | frontend/stde-app/src/pages/Login.jsx:30-34 | For the same teacher answer, the student page leaves nobody authenticated while the legacy page leaves the teacher signed in |
| LoginPages.TeacherPageKeepsStudentSession | frontend/stde-app/src/pages/TeacherLogin.jsx:26-30 | A student refused by the teacher page is still authenticated as that student |
| LoginPages.TeacherWithoutTokenLooksAuthenticated | frontend/stde-app/src/pages/TeacherLogin.jsx:32-35 | A teacher answer without a token stores the text `undefined` as the token, which counts as authenticated |
| LoginPages.StudentWithoutTokenKeepsOldToken | frontend/stde-app/src/pages/StudentLogin.jsx:40-43 | A student answer without a token leaves the authentication state as it was before |
| RegisterPages.PasswordProblem | frontend/stde-app/src/pages/StudentRegister.jsx:36-44 | Mismatch is reported first, then a password shorter than six characters; there is no problem exactly when both checks pass |
| RegisterPages.StudentRegisterSubmit | frontend/stde-app/src/pages/StudentRegister.jsx:32-65 | A failed check shows its message and sends nothing; otherwise the names, email, password and STUDENT are sent, and navigation to the student login happens exactly on success |
| RegisterPages.TeacherRegisterSubmit | frontend/stde-app/src/pages/TeacherRegister.jsx:34-67 | The same checks with the teacher texts; on failure the service's thrown text is shown; navigation to the teacher login happens exactly on success |
| RegisterPages.TeacherNamesAreLost | frontend/stde-app/src/pages/TeacherRegister.jsx:51-57 | A teacher registration sends no first or last name, and the employee id and department never affect the result |
| RegisterPages.TeacherFailureShowsServiceMessage | frontend/stde-app/src/pages/TeacherRegister.jsx:62-63 | The error shown is the service's message or its 'Registration failed' fallback; the page's own fallback appears only when the server sent that exact text |
| RegisterPages.TeacherRegisterSubmitIntended | frontend/stde-app/src/pages/TeacherRegister.jsx:51-57 | With the keys the service reads, both names arrive; errors and navigation are the same as the page as written |
| AIEvaluate.Validate | frontend/stde-app/src/pages/AIEvaluate.jsx:129-148 | Each of the three intake errors is reported exactly under its condition, in the order presence, type, size; a file passes exactly when its type is allowed and it is at most 10 MB |
| AIEvaluate.IntakeBoundaries | frontend/stde-app/src/pages/AIEvaluate.jsx:144-145 | The limit is 10 MiB: a file of exactly that size passes, one byte more is too large, and an image is refused for its type before its size |
| AIEvaluate.RealDocxRejected | frontend/stde-app/src/pages/AIEvaluate.jsx:134-139 | The standard DOCX MIME type is not in the allowed list as written, so every real DOCX file is refused |
| AIEvaluate.LoadDocuments | frontend/stde-app/src/pages/AIEvaluate.jsx:33-43 | A success replaces the list, with null read as empty; a failure keeps the old list; the spinner always stops and nothing else changes |
| AIEvaluate.FetchHistory | frontend/stde-app/src/pages/AIEvaluate.jsx:45-52 | A success replaces the history, a failure changes nothing, and no other part of the page changes |
| AIEvaluate.HandleFile | frontend/stde-app/src/pages/AIEvaluate.jsx:125-161 | An intake error is shown without any request; an upload success reports the file name and reloads the list; an upload failure shows the server message or the fallback; the evaluation side of the page never changes |
| AIEvaluate.HandleDeleteDocument | frontend/stde-app/src/pages/AIEvaluate.jsx:167-179 | Without confirmation nothing happens; a failed delete shows its message; a successful delete reports the file name and reloads the list |
| AIEvaluate.ClassifyRunError | frontend/stde-app/src/pages/AIEvaluate.jsx:63-69 | A message without the type marker becomes an UNKNOWN error that carries the message, or 'Unknown error' when there is none |
| AIEvaluate.ClassifyTagged | frontend/stde-app/src/pages/AIEvaluate.jsx:63-66 | A tagged message `TYPE:kind\|text` is classified as that kind with that text |
| AIEvaluate.ClassifyTagWithoutMessage | frontend/stde-app/src/pages/AIEvaluate.jsx:64-66 | A tagged message with no separator gives the kind and no text |
| AIEvaluate.ClassifyRateLimitExample | frontend/stde-app/src/pages/AIEvaluate.jsx:63-66 | A message tagged with the RATE_LIMIT kind and the text 'Too many requests' is classified as RATE_LIMIT with that text. This does not claim the page receives the tag, since the backend controller strips it before answering |
| AIEvaluate.ClassifyUntaggedExamples | frontend/stde-app/src/pages/AIEvaluate.jsx:63-69 | An untagged message and a missing message are both UNKNOWN |
| AIEvaluate.BeginRequest | frontend/stde-app/src/pages/AIEvaluate.jsx:55-57 | Starting a request sets the busy flag and clears the error and result, keeping the history and documents |
| AIEvaluate.HandleRunEvaluation | frontend/stde-app/src/pages/AIEvaluate.jsx:54-73 | A success shows the result and then fetches the history; a failure classifies the error and issues no history request; the busy flag always clears |
| AIEvaluate.HandleGetEvaluation | frontend/stde-app/src/pages/AIEvaluate.jsx:75-88 | The request goes to the given id or else the current one; a failure is always a FETCH_ERROR carrying the raw message |
| AIEvaluate.RequestButtonsReenabled | frontend/stde-app/src/pages/AIEvaluate.jsx:386-405 | Both request buttons (`AIEvaluate.CanRequest`) are disabled while a request runs, and after either handler ends they are enabled again exactly when a document id is typed |
| AIEvaluate.FetchErrorIgnoresTags | frontend/stde-app/src/pages/AIEvaluate.jsx:63-84 | The same tagged failure is classified by its kind when running, but shown as FETCH_ERROR when fetching |
| AIEvaluate.GetErrorStyle | frontend/stde-app/src/pages/AIEvaluate.jsx:90-97 | Each of RATE_LIMIT, DUPLICATE and SERVER_ERROR gets its own style, and every other kind gets the default style |
| AIEvaluate.RoundedQuotient | frontend/stde-app/src/pages/AIEvaluate.jsx:278 | `Math.round(s / n)` is the integer nearest to s/n, with halves rounded up |
| AIEvaluate.ScoreSumBounds | frontend/stde-app/src/pages/AIEvaluate.jsx:278 | When every score, with missing ones read as 0, lies in [lo, hi], the sum lies between lo·n and hi·n |
| AIEvaluate.RoundedQuotientWithin | frontend/stde-app/src/pages/AIEvaluate.jsx:278 | Rounding a quotient whose exact value lies in [lo, hi] stays in [lo, hi] |
| AIEvaluate.AverageWithin | frontend/stde-app/src/pages/AIEvaluate.jsx:277-279 | The average tile stays within any range that holds every score and 0 |
| AIEvaluate.AverageOfEqualScores | frontend/stde-app/src/pages/AIEvaluate.jsx:277-279 | A history whose scores are all c shows an average of c |
| AIEvaluate.AverageScore | frontend/stde-app/src/pages/AIEvaluate.jsx:277-279 | An empty history shows 0; otherwise the figure is the integer nearest the mean of the scores, halves rounding up, with a missing score counting as 0 |
| EvaluationService.WindowAt | backend/src/main/java/citu/stde/service/EvaluationService.java:206-216 | A missing or ended window restarts at now with count 0; otherwise the stored start and the count, null read as 0, stay; the window in force never ended before now |
| EvaluationService.CheckAndIncrementUsage | backend/src/main/java/citu/stde/service/EvaluationService.java:201-225 | An unknown user throws 'User not found'; a check succeeds exactly when the count in force is below 30, and then records the window and count plus one; a refusal leaves the row and reports the whole minutes left |
| EvaluationService.CheckedCountWithinLimit | backend/src/main/java/citu/stde/service/EvaluationService.java:218-223 | After a successful check the recorded count is between 1 and 30 and the window is current |
| EvaluationService.WindowBoundary | backend/src/main/java/citu/stde/service/EvaluationService.java:211 | A full window still refuses at exactly one hour after its start and restarts one second later (`isBefore` is strict) |
| EvaluationService.ChecksWithinWindow | backend/src/main/java/citu/stde/service/EvaluationService.java:218-223 | Inside one window, n checks starting from count c succeed and add n, as long as c + n stays within the limit |
| EvaluationService.ThirtyPerHour | backend/src/main/java/citu/stde/service/EvaluationService.java:52 | A fresh user gets exactly thirty checks in one instant, and the thirty-first is refused |
| EvaluationService.GetUsageStats | backend/src/main/java/citu/stde/service/EvaluationService.java:227-254 | An unknown user throws; otherwise the limit is 30, remaining is the limit minus used but not below 0; a lapsed window reports 0 used and a full hour to reset; a current window reports the stored count and the seconds left until its start plus one hour |
| EvaluationService.RemainingPredictsCheck | backend/src/main/java/citu/stde/service/EvaluationService.java:218-251 | The statistics show attempts remaining exactly when the next check would succeed |
| EvaluationService.StatsAfterCheck | backend/src/main/java/citu/stde/service/EvaluationService.java:223-251 | After a successful check, the statistics show one more used and one fewer remaining |
| EvaluationService.CopyCachedEvaluation | backend/src/main/java/citu/stde/service/EvaluationService.java:266-290 | The copy belongs to the current document and user, keeps every cached score, and its overall feedback is the cached text (or `null`) followed by the cache note |
| EvaluationService.Rewrap | backend/src/main/java/citu/stde/service/EvaluationService.java:183-198 | A null message throws a NullPointerException; a message mentioning 429 or rate limit becomes the rate-limit message; a tagged message is kept; any other gains the server-error prefix; the result is always a RuntimeException |
| EvaluationService.RewrapAlwaysTagged | backend/src/main/java/citu/stde/service/EvaluationService.java:188-197 | Every message that leaves the catch block starts with the type marker |
| EvaluationService.Process | backend/src/main/java/citu/stde/service/EvaluationService.java:69-181 | A content failure propagates; a cache hit returns the copy; a document judged not a test document is refused as INVALID_DOCUMENT; a fresh success needs a positive verdict and non-null scores and returns the evaluation built from the AI answer |
| EvaluationService.EvaluateDocument | backend/src/main/java/citu/stde/service/EvaluationService.java:56-199 | Lookup, ownership and quota failures throw before any status is written; otherwise PROCESSING is written, then COMPLETED or FAILED, and every processing failure leaves through the rewrapping catch |
| EvaluationService.ProcessingFailuresAreRewrapped | backend/src/main/java/citu/stde/service/EvaluationService.java:183-198 | A failure after PROCESSING is always a RuntimeException or a NullPointerException |
| EvaluationService.IllegalArgumentOnlyFromLookups | backend/src/main/java/citu/stde/service/EvaluationService.java:57-64 | An IllegalArgumentException leaving the service is only 'Document not found' or 'User not found' |
| EvaluationService.CacheHitSkipsAi | backend/src/main/java/citu/stde/service/EvaluationService.java:78-81 | On a cache hit neither the classifier's verdict nor the AI answer affects the outcome |
| EvaluationService.RewrapIntended | backend/src/main/java/citu/stde/service/EvaluationService.java:183-198 | Same messages as the catch block, but an IllegalArgumentException keeps its class |
| EvaluationService.EvaluateDocumentIntended | backend/src/main/java/citu/stde/service/EvaluationService.java:56-199 | Same writes, statuses, successes and failure messages as the method as written; only the class of a rewrapped failure may differ |
| EvaluationService.OverrideEvaluationScore | backend/src/main/java/citu/stde/service/EvaluationService.java:293-314 | A missing or out-of-range score is refused first; success happens exactly for a score in 0..100 on a classroom document owned by the teacher; all five scores become the new score, with the fixed feedback, on the existing row or a new one |
| EvaluationService.GetEvaluationByDocumentId | backend/src/main/java/citu/stde/service/EvaluationService.java:316-327 | A missing report throws 'Evaluation report not found.'; a success returns the stored report |
| EvaluationService.ReadAuthorization | backend/src/main/java/citu/stde/service/EvaluationService.java:319-325 | A report is readable exactly by its owner or by the classroom's teacher; a non-security failure of the ownership check escapes; without a classroom only the owner may read |
| EvaluationController.GetUserId | backend/src/main/java/citu/stde/controller/EvaluationController.java:100-104 | The id is returned exactly when the email is known; otherwise a RuntimeException 'User not found' is thrown |
| EvaluationController.ErrorBody | backend/src/main/java/citu/stde/controller/EvaluationController.java:35-37 | An error body with a message is that status and message; with a null message `Map.of` throws a NullPointerException |
| EvaluationController.MapEvaluateFailure | backend/src/main/java/citu/stde/controller/EvaluationController.java:31-54 | 400 is returned only for an IllegalArgumentException: with the INVALID_DOCUMENT tag the tag is removed from the message, otherwise the message is given as is. Another unchecked exception is answered exactly when it carries one of the three tags, checked in order: QUOTA_EXCEEDED and then RATE_LIMIT give 429, SERVER_ERROR gives 500, each with its tag removed. Any other exception propagates unchanged |
| EvaluationController.QuotaTagWins | backend/src/main/java/citu/stde/controller/EvaluationController.java:40-43 | An unchecked exception carrying the quota tag is a 429 whose message has every copy of the tag removed |
| EvaluationController.EvaluateEndpoint | backend/src/main/java/citu/stde/controller/EvaluationController.java:24-56 | An unknown email escapes as 'User not found'; otherwise the reply is 200 exactly when the service succeeds, with its result as the body |
| EvaluationController.BadRequestOnlyForLookups | backend/src/main/java/citu/stde/controller/EvaluationController.java:31-37 | The endpoint's 400 reply carries only 'Document not found' or 'User not found' |
| EvaluationController.LookupMessagesUntagged | backend/src/main/java/citu/stde/controller/EvaluationController.java:33 | Neither lookup message contains the INVALID_DOCUMENT tag |
| EvaluationController.InvalidDocumentRewrapped | backend/src/main/java/citu/stde/service/EvaluationService.java:85-192 | The INVALID_DOCUMENT refusal leaves the catch block as a RuntimeException, and under the intended rewrap it would stay an IllegalArgumentException |
| EvaluationController.InvalidDocumentEscapes | backend/src/main/java/citu/stde/controller/EvaluationController.java:31-54 | A document refused as not a test document makes the endpoint throw the tagged RuntimeException instead of answering 400 |
| EvaluationController.EvaluateEndpointIntended | backend/src/main/java/citu/stde/controller/EvaluationController.java:24-56 | With the intended service, the endpoint answers 200 in exactly the same cases and with the same bodies |
| EvaluationController.InvalidDocumentIntendedIsBadRequest | backend/src/main/java/citu/stde/controller/EvaluationController.java:33-35 | With the intended service, a document refused as not a test document gets a 400 with the untagged text |
| EvaluationController.InvalidDocumentTagRemoved | backend/src/main/java/citu/stde/controller/EvaluationController.java:34 | Removing the tag from the INVALID_DOCUMENT message leaves exactly the sentence meant for the user |
| EvaluationController.IntendedAgreesOnRuntimeFailures | backend/src/main/java/citu/stde/controller/EvaluationController.java:38-54 | Whenever processing raises no IllegalArgumentException, the intended endpoint replies exactly as the one written |
| EvaluationController.QuotaMessageUntagged | backend/src/main/java/citu/stde/controller/EvaluationController.java:40-41 | The quota message carries its tag, and removing the tag leaves the sentence with the minutes |
| EvaluationController.QuotaExceededIsTooManyRequests | backend/src/main/java/citu/stde/controller/EvaluationController.java:40-43 | An owner whose current window is full gets 429 with the minutes left in the window |
| EvaluationController.QuotaFailureMapped | backend/src/main/java/citu/stde/service/EvaluationService.java:220 | The quota exception maps to 429 with the untagged sentence |
| EvaluationController.RateLimitMessageTagged | backend/src/main/java/citu/stde/service/EvaluationService.java:189 | The rate-limit message carries the RATE_LIMIT tag and not the quota tag |
| EvaluationController.RateLimitMessageUntagged | backend/src/main/java/citu/stde/controller/EvaluationController.java:46 | Removing the tag from the rate-limit message leaves the wait notice |
| EvaluationController.AiRateLimitIsTooManyRequests | backend/src/main/java/citu/stde/controller/EvaluationController.java:45-47 | An AI failure mentioning 429 reaches the client as 429 with the wait notice |
| EvaluationController.ServerErrorUntagged | backend/src/main/java/citu/stde/controller/EvaluationController.java:50-52 | A server-error message built from untagged text carries the SERVER_ERROR tag, and removing it leaves the lead-in followed by the original text |
| EvaluationController.UntaggedFailureIsServerError | backend/src/main/java/citu/stde/controller/EvaluationController.java:50-52 | A processing failure with an ordinary message reaches the client as 500 'Internal processing failed: ' followed by the message |
| EvaluationController.UnknownEmailEscapes | backend/src/main/java/citu/stde/controller/EvaluationController.java:28-38 | 'User not found' from the controller's own lookup is untagged and escapes both handlers |
| EvaluationController.OverrideEndpoint | backend/src/main/java/citu/stde/controller/EvaluationController.java:80-96 | A success answers with the fixed message and the evaluation; a SecurityException becomes 403 and any other exception 500, each with its message (a null message throws) |
| EvaluationController.OverrideOutcomes | backend/src/main/java/citu/stde/controller/EvaluationController.java:80-96 | An out-of-range score gives 500 with the range message; a document outside any class gives 403; a valid score on a class document is answered with all five scores set |
| OAuthSuccess.LastValue | backend/src/main/java/citu/stde/security/OAuth2LoginSuccessHandler.java:56-77 | Without a cookie of the name, the default is used; otherwise the value is that of the last cookie with the name |
| OAuthSuccess.Expired | backend/src/main/java/citu/stde/security/OAuth2LoginSuccessHandler.java:65-74 | The cookies sent back for expiry are exactly the received cookies with one of the two handled names |
| OAuthSuccess.ScanCookies | backend/src/main/java/citu/stde/security/OAuth2LoginSuccessHandler.java:56-77 | The loop over the cookies yields the last login-type value, the last mode value (each defaulting) and the handled cookies in order; with no cookies, the defaults and no expiries |
| OAuthSuccess.CookieSettings | backend/src/main/java/citu/stde/security/OAuth2LoginSuccessHandler.java:56-59 | Without cookies the login page is 'student' and the mode 'login' |
| OAuthSuccess.CookieDefaults | backend/src/main/java/citu/stde/security/OAuth2LoginSuccessHandler.java:56-77 | When no cookie has either handled name, the page stays 'student', the mode stays 'login' and no cookie is expired |
| OAuthSuccess.LaterLoginTypeWins | backend/src/main/java/citu/stde/security/OAuth2LoginSuccessHandler.java:60-69 | A login-type cookie that comes later decides the page, whatever came before it, and does not change the mode |
| OAuthSuccess.CallbackFor | backend/src/main/java/citu/stde/security/OAuth2LoginSuccessHandler.java:164-180 | A redirect exists exactly when both names and the email are present; its token claims and fields all describe the saved account, and a missing picture becomes empty |
| OAuthSuccess.RoleCheck | backend/src/main/java/citu/stde/security/OAuth2LoginSuccessHandler.java:120-132 | A mismatch is reported exactly for a non-student on the student page or a non-teacher on the teacher page, and redirects to that page |
| OAuthSuccess.Decide | backend/src/main/java/citu/stde/security/OAuth2LoginSuccessHandler.java:86-161 | Link mode with a linked Google id is blocked; a role redirect needs an existing account outside link mode; a new account is created exactly when no account has the email and nothing blocked; a login keeps the account's id and role |
| OAuthSuccess.OnAuthenticationSuccess | backend/src/main/java/citu/stde/security/OAuth2LoginSuccessHandler.java:32-186 | Blocked exactly when the last mode cookie says "link" and the Google id is already linked. Without any cookie, an existing non-student is sent back to the student page with the teacher-account message, and an unknown email becomes a new student with the assigned id. A created account carries Google's email and id, and is a teacher exactly when the page is "teacher". The handled cookies are expired |
| OAuthSuccess.ErrorRedirect | backend/src/main/java/citu/stde/security/OAuth2LoginSuccessHandler.java:91-131 | Exactly the two refusals redirect with an error: the linked-id block to the callback page, a role mismatch to that login page, each with its message |
| OAuthSuccess.RefusalRedirects | backend/src/main/java/citu/stde/security/OAuth2LoginSuccessHandler.java:86-132 | No account is signed in exactly when an error redirect is sent, and then nothing is saved; link mode with a linked id goes to the callback page; a non-student on the student page and a non-teacher on the teacher page go back to that page with the other role's message |
| OAuthSuccess.LinkBlockedExactly | backend/src/main/java/citu/stde/security/OAuth2LoginSuccessHandler.java:86-95 | The handler blocks exactly in link mode when the Google id is already linked, and then saves nothing |
| OAuthSuccess.RoleGate | backend/src/main/java/citu/stde/security/OAuth2LoginSuccessHandler.java:113-132 | Outside link mode an existing account is redirected exactly on a page and role mismatch, with the page's own message; in link mode it never is |
| OAuthSuccess.PageMatchesRole | backend/src/main/java/citu/stde/security/OAuth2LoginSuccessHandler.java:110-161 | Outside link mode, whoever signs in through the student or teacher page has that page's role |
| OAuthSuccess.GoogleIdNeverOverwritten | backend/src/main/java/citu/stde/security/OAuth2LoginSuccessHandler.java:137-142 | An existing account's Google id is set only when it had none and Google sent one, and is otherwise left as it was |
| OAuthSuccess.NewUserRole | backend/src/main/java/citu/stde/security/OAuth2LoginSuccessHandler.java:144-161 | A new account is a teacher exactly when the page is 'teacher' and a student otherwise, with an empty password and Google's id, email and names, and it is saved |
| OAuthSuccess.CallbackNamesAccount | backend/src/main/java/citu/stde/security/OAuth2LoginSuccessHandler.java:164-175 | The redirect's user type and token role name the account's role, which reads back as that role, and both carry the account's id |
| OAuthSuccess.MissingNameSavesWithoutCallback | backend/src/main/java/citu/stde/security/OAuth2LoginSuccessHandler.java:146-179 | A Google profile without a given name still creates and saves the account, but the redirect cannot be built |

## Left out

- Network, timers and asynchrony: every request is a `Reply` parameter and is answered at once.
  The `setTimeout` navigation delays and React rendering are not modelled.
- The AI call, the content classifier (`isValidSoftwareTestingDocument`), Drive text extraction,
  hashing, the repositories, `classroomService.verifyClassroomOwnership` and `JwtUtil` are
  parameters or outcomes. The token is modelled by its claims. URL encoding is not modelled: the
  callback holds the values before encoding.
- A run of `evaluateDocument` records only two kinds of write: the usage row saved by
  `checkAndIncrementUsage`, and the statuses written to the document (PROCESSING, then COMPLETED
  or FAILED). Both are recorded as issued, even when an exception follows. The model does not
  record these writes:
  - the content hash saved on the document (`EvaluationService.java:71-73`);
  - the delete and flush of an earlier evaluation of the document (`:88-92`);
  - the save of the new evaluation (`:173`);
  - the save of the copied evaluation on a cache hit (`:280`).
  The evaluation a run returns stands for the saved row.
- The `@Transactional` rollback of `overrideEvaluationScore` is not modelled. Activity logging
  and console output are not modelled.
- `AuthService.LoginWithoutUserBreaksRead`: an absent `user` in a login answer means the field is
  missing, so `JSON.stringify(undefined)` stores the text `undefined`. A `user` field that is
  JSON `null` is not modelled. The source would store the text `null`; `getCurrentUser` would then
  read no user, and a guarded route would redirect to the login page instead of throwing.
- `EvaluationService.EvaluateDocument` does not model the rollback of its `@Transactional`
  (`EvaluationService.java:55`). When the method throws, the database keeps none of its writes:
  not the usage increment saved by `checkAndIncrementUsage` (`:223`), nor the PROCESSING status
  (`:66-67`), nor the FAILED status (`:184-185`). The model lists these writes as issued, and its
  contract speaks of issued writes, not of what stays committed. So a failed evaluation does not
  use up an attempt of the hourly quota, although the model's write list shows the increment.
- The stored user JSON is reduced to the record's five fields and escapes only `"` and `\`.
- `AuthService.GetCurrentUser` reads only text in the exact shape `UserJson.Encode` writes:
  the five keys in a fixed order, no whitespace, and a role of STUDENT, TEACHER or ADMIN. Any
  other text throws in the model. `JSON.parse` returns a value for some of that text, such as
  `{}`, `123`, reordered or extra keys, a null `userType` or an unknown role. For such text the
  source returns an object where the model throws. The model therefore does not promise what
  `getCurrentUser` returns for stored text it did not write itself.
- `ProtectedRoute.Guard` inherits this: for a stored user that is valid JSON but not an encoded
  record, the model's guard throws, while the source component redirects or renders.
  Roles are STUDENT, TEACHER and ADMIN.
- String lengths count `char`s; JavaScript counts UTF-16 units, which agree for the texts involved.
  `toLowerCase` is modelled on ASCII letters only.
- `Strings.ReplaceAll` requires a non-empty pattern. Every call site uses a non-empty tag.
- `LoginPages.StudentLoginSubmit` and `LoginPages.LegacyLoginSubmit` fall back to the whole answer
  when it has no `user` field. The answer's own record is a parameter (`asUser`), not a reading
  of arbitrary JSON.
- `formatFileSize`, `formatDate`, the per-dimension feedback texts and the page layout are not
  modelled. The other controller routes (`getUsageStats`, `getEvaluation`, `getUserEvaluations`)
  are single forwarding calls and are not modelled as endpoints.
- `truncateContent` is switched off by a constant in the source, so the model does not apply it.
  A null content hash is treated like any other value.
- OAuth: cookie values and the stored user type are assumed non-null. The second lookup by email
  in link mode affects nothing, so it is left out. The id the repository assigns to a new
  account is a parameter.
- The Sidebar logout button and the OAuth2Controller entry points only call the modelled
  functions and are not part of this model.
- `AIEvaluate.ClassifyRunError` is specified in its contract only for untagged messages. Tagged
  messages are covered by `AIEvaluate.ClassifyTagged` and `AIEvaluate.ClassifyTagWithoutMessage`,
  which require that the kind and text hold no `|`.
- `OAuthSuccess.CookieSettings` states only the no-cookie case in its contract. The loop method
  `OAuthSuccess.ScanCookies` and `OAuthSuccess.CookieDefaults` state the rest.

The DOCX entry of the allowed-type list at `AIEvaluate.jsx:136` differs from the DOCX type the
icon helper compares with at `AIEvaluate.jsx:199` by one space after "wordprocessingml.". It is
modelled as written, so a real DOCX upload is refused with the invalid-type message
(`AIEvaluate.RealDocxRejected`).

## Findings

| source | as written | input that shows it | evidently intended | confidence | as-written member | corrected member |
|---|---|---|---|---|---|---|
| frontend/stde-app/src/pages/TeacherRegister.jsx:51-57 | The page passes `firstName` and `familyName`, but `authService.register` reads `firstname` and `lastname`, so both names are sent as undefined | any valid teacher form, e.g. names "Ada" / "Lovelace" with matching six-letter passwords | send the names under the keys the service reads | not executed | RegisterPages.TeacherNamesAreLost | RegisterPages.TeacherRegisterSubmitIntended |
| backend/src/main/java/citu/stde/controller/EvaluationController.java:31-36 | The INVALID_DOCUMENT 400 branch is never taken: the service's catch block rethrows the IllegalArgumentException as a RuntimeException, whose handler knows no INVALID_DOCUMENT tag, so the exception escapes | an owned document within quota, not cached, that the classifier judges not a software test document | the user receives 400 with 'The uploaded document is not a Software Testing Document.' | not executed | EvaluationController.InvalidDocumentEscapes | EvaluationController.InvalidDocumentIntendedIsBadRequest |

=== FILE: ai_evaluate.dfy ===
/** The controller logic of the AI Evaluate page (frontend/stde-app/src/pages/AIEvaluate.jsx):
    file intake checks, upload and delete with a document-list reload, the run/get-result
    requests with their busy flag and error classification, history replacement, and the
    average-score figure. Each handler is one sequential transition of the page state; the
    answers of the remote services are parameters, and `calls` records which requests the
    handler issued, in order. */
module AIEvaluate {
  import opened Wrappers
  import opened Strings

  // ---------------------------------------------------------------------------------------
  // Intake

  const PdfType: string := "application/pdf"
  /** The DOCX entry of the page's accepted list, exactly as it is written there: it holds a
      space after "wordprocessingml.", unlike the DOCX type the page's icon helper compares with. */
  const DocxTypeAsListed: string := "application/vnd.openxmlformats-officedocument.wordprocessingml. document"
  /** The MIME type browsers report for a .docx file. */
  const DocxType: string := "application/vnd.openxmlformats-officedocument.wordprocessingml.document"
  const TextType: string := "text/plain"
  const AllowedTypes: seq<string> := [PdfType, DocxTypeAsListed, TextType]

  /** 10 * 1024 * 1024 bytes. */
  const MaxFileSize: nat := 10485760

  datatype CandidateFile = CandidateFile(name: string, mimeType: string, size: nat)

  datatype IntakeError = Missing | InvalidType | TooLarge

  function IntakeMessage(e: IntakeError): string {
    match e
    case Missing => "Please select a file"
    case InvalidType => "Invalid file type. Only PDF, DOCX, and TXT files are allowed."
    case TooLarge => "File size exceeds 10MB limit."
  }

  /** The three checks of `handleFile`, in order: presence, type, size. */
  function Validate(file: Option<CandidateFile>): (r: Option<IntakeError>)
    ensures r == Some(Missing) <==> file.None?
    ensures r == Some(InvalidType) <==> file.Some? && file.value.mimeType !in AllowedTypes
    ensures r == Some(TooLarge) <==> file.Some? && file.value.mimeType in AllowedTypes && file.value.size > MaxFileSize
    ensures r.None? <==> file.Some? && file.value.mimeType in AllowedTypes && file.value.size <= MaxFileSize
  {
    match file
    case None => Some(Missing)
    case Some(f) =>
      if f.mimeType !in AllowedTypes then Some(InvalidType)
      else if f.size > MaxFileSize then Some(TooLarge)
      else None
  }

  /** The size limit is inclusive and the type check comes before the size check. */
  lemma IntakeBoundaries(name: string)
    ensures MaxFileSize == 10 * 1024 * 1024
    ensures Validate(Some(CandidateFile(name, PdfType, MaxFileSize))).None?
    ensures Validate(Some(CandidateFile(name, PdfType, MaxFileSize + 1))) == Some(TooLarge)
    ensures Validate(Some(CandidateFile(name, TextType, 15 * 1024 * 1024))) == Some(TooLarge)
    ensures Validate(Some(CandidateFile(name, "image/png", 15 * 1024 * 1024))) == Some(InvalidType)
  {
  }

  /** With the list as written, a genuine .docx file is refused as an invalid type. */
  lemma RealDocxRejected(name: string, size: nat)
    ensures Validate(Some(CandidateFile(name, DocxType, size))) == Some(InvalidType)
  {
    assert DocxType != PdfType && DocxType != TextType;
    assert DocxType[63] != DocxTypeAsListed[63];
  }

  // ---------------------------------------------------------------------------------------
  // Page state

  datatype DocumentEntry = DocumentEntry(id: string, filename: string)

  /** An evaluation as the page uses it; the other fields are only displayed. */
  datatype EvaluationEntry = EvaluationEntry(documentId: string, overallScore: Option<int>)

  /** The page's `errorObj`: `kind` is whatever text preceded the "|" in a tagged message. */
  datatype ErrorObj = ErrorObj(kind: string, message: Option<string>)

  datatype Page = Page(
    uploading: bool,
    uploadError: string,
    uploadSuccess: string,
    documents: seq<DocumentEntry>,
    loadingDocuments: bool,
    documentId: string,
    currentResult: Option<EvaluationEntry>,
    history: seq<EvaluationEntry>,
    loading: bool,
    errorObj: Option<ErrorObj>)

  datatype RemoteCall =
    | UploadDocument(fileName: string)
    | ListDocuments
    | DeleteDocument(id: string)
    | EvaluateDocument(id: string)
    | GetEvaluation(id: string)
    | ListEvaluations

  datatype Step = Step(page: Page, calls: seq<RemoteCall>)

  /** Only the upload-side fields change. */
  ghost predicate EvaluationSideUnchanged(p: Page, q: Page) {
    q.documentId == p.documentId && q.currentResult == p.currentResult && q.history == p.history &&
    q.loading == p.loading && q.errorObj == p.errorObj
  }

  /** `loadDocuments`: the list becomes `response.documents || []`; a failure keeps it. */
  function LoadDocuments(p: Page, reply: Reply<Option<seq<DocumentEntry>>>): (q: Page)
    ensures !q.loadingDocuments
    ensures reply.Fail? ==> q.documents == p.documents
    ensures reply.Ok? ==> q.documents == reply.value.GetOr([])
    ensures q == p.(documents := q.documents, loadingDocuments := false)
  {
    match reply
    case Ok(docs) => p.(documents := docs.GetOr([]), loadingDocuments := false)
    case Fail(_) => p.(loadingDocuments := false)
  }

  /** `fetchHistory`: the history is replaced wholesale by the fetched list, never merged; a
      failure keeps the old one. */
  function FetchHistory(p: Page, reply: Reply<seq<EvaluationEntry>>): (q: Page)
    ensures reply.Ok? ==> q.history == reply.value
    ensures reply.Fail? ==> q == p
    ensures q == p.(history := q.history)
  {
    match reply
    case Ok(list) => p.(history := list)
    case Fail(_) => p
  }

  /** `handleFile`. A failed check makes no request; an accepted file is uploaded and, once
      that succeeds, the document list is reloaded. An upload failure shows its message as is. */
  function HandleFile(p: Page, file: Option<CandidateFile>, upload: Reply<()>,
                      reload: Reply<Option<seq<DocumentEntry>>>): (s: Step)
    ensures Validate(file).Some? ==>
              s == Step(p.(uploadError := IntakeMessage(Validate(file).value), uploadSuccess := ""), [])
    ensures Validate(file).None? && upload.Ok? ==>
              && s.calls == [UploadDocument(file.value.name), ListDocuments]
              && s.page.uploadError == ""
              && s.page.uploadSuccess == "Document \"" + file.value.name + "\" uploaded successfully!"
              && s.page.documents == LoadDocuments(p, reload).documents
    ensures Validate(file).None? && upload.Fail? ==>
              && s.calls == [UploadDocument(file.value.name)]
              && s.page.uploadError == OrElse(upload.message, "Failed to upload document")
              && s.page.documents == p.documents
    ensures Validate(file).None? ==> !s.page.uploading && !s.page.loadingDocuments == (upload.Ok? || !p.loadingDocuments)
    ensures EvaluationSideUnchanged(p, s.page)
  {
    var q := p.(uploadError := "", uploadSuccess := "");
    match Validate(file)
    case Some(e) => Step(q.(uploadError := IntakeMessage(e)), [])
    case None =>
      var f := file.value;
      match upload
      case Ok(_) =>
        var done := q.(uploading := true, uploadSuccess := "Document \"" + f.name + "\" uploaded successfully!");
        Step(LoadDocuments(done, reload).(uploading := false), [UploadDocument(f.name), ListDocuments])
      case Fail(msg) =>
        Step(q.(uploadError := OrElse(msg, "Failed to upload document"), uploading := false), [UploadDocument(f.name)])
  }

  /** `handleDeleteDocument`. A declined confirmation changes nothing and calls nothing; a
      failure shows its message and keeps the list; a success reloads the list. */
  function HandleDeleteDocument(p: Page, id: string, filename: string, confirmed: bool,
                                delete: Reply<()>, reload: Reply<Option<seq<DocumentEntry>>>): (s: Step)
    ensures !confirmed ==> s == Step(p, [])
    ensures confirmed && delete.Fail? ==>
              s == Step(p.(uploadError := OrElse(delete.message, "Failed to delete document")), [DeleteDocument(id)])
    ensures confirmed && delete.Ok? ==>
              && s.calls == [DeleteDocument(id), ListDocuments]
              && s.page.uploadSuccess == "Document \"" + filename + "\" deleted successfully!"
              && s.page.documents == LoadDocuments(p, reload).documents
    ensures EvaluationSideUnchanged(p, s.page)
  {
    if !confirmed then Step(p, [])
    else match delete
      case Fail(msg) => Step(p.(uploadError := OrElse(msg, "Failed to delete document")), [DeleteDocument(id)])
      case Ok(_) =>
        var q := p.(uploadSuccess := "Document \"" + filename + "\" deleted successfully!");
        Step(LoadDocuments(q, reload), [DeleteDocument(id), ListDocuments])
  }

  // ---------------------------------------------------------------------------------------
  // Evaluation requests

  const Tag: string := "TYPE:"

  /** The run-analysis catch: a message holding "TYPE:" anywhere loses its first "TYPE:" and
      is split on "|" into kind and message (the message may be absent); any other message,
      or "Unknown error" when there is none, is an UNKNOWN error. */
  function ClassifyRunError(message: Option<string>): (e: ErrorObj)
    ensures !Contains(OrElse(message, "Unknown error"), Tag) ==>
              e == ErrorObj("UNKNOWN", Some(OrElse(message, "Unknown error")))
  {
    var raw := OrElse(message, "Unknown error");
    if Contains(raw, Tag) then
      var pieces := Split(ReplaceFirst(raw, Tag, ""), '|');
      ErrorObj(pieces[0], if |pieces| > 1 then Some(pieces[1]) else None)
    else ErrorObj("UNKNOWN", Some(raw))
  }

  lemma TagPrefix(rest: string)
    ensures StartsWith(Tag + rest, Tag) && Contains(Tag + rest, Tag)
    ensures ReplaceFirst(Tag + rest, Tag, "") == rest
  {
    assert (Tag + rest)[..|Tag|] == Tag;
    PrefixOccurs(Tag + rest, Tag);
    assert (Tag + rest)[|Tag|..] == rest;
  }

  /** Classification undoes the server's "TYPE:<kind>|<message>" encoding. */
  lemma ClassifyTagged(kind: string, msg: string)
    requires '|' !in kind && '|' !in msg
    ensures ClassifyRunError(Some(Tag + kind + "|" + msg)) == ErrorObj(kind, Some(msg))
  {
    assert Tag + kind + "|" + msg == Tag + (kind + ['|'] + msg);
    TagPrefix(kind + ['|'] + msg);
    SplitOfJoin(kind, msg, '|');
  }

  /** A tag with no "|" yields a kind and no message. */
  lemma ClassifyTagWithoutMessage(kind: string)
    requires '|' !in kind
    ensures ClassifyRunError(Some(Tag + kind)) == ErrorObj(kind, None)
  {
    TagPrefix(kind);
    SplitNoSeparator(kind, '|');
  }

  /** A message in the tagged form with the RATE_LIMIT kind splits into that kind and its
      text. Whether the page ever receives the tag depends on the request layer, which is not
      part of this model: the backend controller strips it before answering. */
  lemma ClassifyRateLimitExample()
    ensures ClassifyRunError(Some(Tag + "RATE_LIMIT|Too many requests")) == ErrorObj("RATE_LIMIT", Some("Too many requests"))
  {
    assert Tag + "RATE_LIMIT|Too many requests" == Tag + "RATE_LIMIT" + "|" + "Too many requests";
    ClassifyTagged("RATE_LIMIT", "Too many requests");
  }

  /** Untagged messages, and a missing one, are UNKNOWN errors. */
  lemma ClassifyUntaggedExamples()
    ensures ClassifyRunError(Some("Network timeout")) == ErrorObj("UNKNOWN", Some("Network timeout"))
    ensures ClassifyRunError(None) == ErrorObj("UNKNOWN", Some("Unknown error"))
  {
    AbsentByIndex("Network timeout", 'T');
    AbsentByIndex("Unknown error", 'T');
    assert Tag[0] == 'T';
    MissingHeadNotContained("Network timeout", Tag);
    MissingHeadNotContained("Unknown error", Tag);
  }

  /** What both request handlers do first: set the busy flag and clear error and result. */
  function BeginRequest(p: Page): (q: Page)
    ensures q.loading && q.errorObj.None? && q.currentResult.None?
    ensures q.history == p.history && q.documentId == p.documentId && q.documents == p.documents
  {
    p.(loading := true, errorObj := None, currentResult := None)
  }

  /** Both request buttons are enabled only when idle and a document id is typed. */
  predicate CanRequest(p: Page) {
    !p.loading && p.documentId != ""
  }

  /** `handleRunEvaluation`: a success shows the result and then fetches the history; a
      failure is classified. The busy flag is cleared on every path. */
  function HandleRunEvaluation(p: Page, evaluation: Reply<EvaluationEntry>,
                               historyReply: Reply<seq<EvaluationEntry>>): (s: Step)
    ensures !s.page.loading
    ensures evaluation.Ok? ==>
              && s.calls == [EvaluateDocument(p.documentId), ListEvaluations]
              && s.page.currentResult == Some(evaluation.value) && s.page.errorObj.None?
              && s.page.history == FetchHistory(p, historyReply).history
    ensures evaluation.Fail? ==>
              && s.calls == [EvaluateDocument(p.documentId)]
              && s.page.currentResult.None? && s.page.errorObj == Some(ClassifyRunError(evaluation.message))
              && s.page.history == p.history
    ensures s.page.documents == p.documents && s.page.uploadError == p.uploadError
  {
    var b := BeginRequest(p);
    match evaluation
    case Ok(data) =>
      Step(FetchHistory(b.(currentResult := Some(data)), historyReply).(loading := false),
           [EvaluateDocument(p.documentId), ListEvaluations])
    case Fail(msg) =>
      Step(b.(errorObj := Some(ClassifyRunError(msg)), loading := false), [EvaluateDocument(p.documentId)])
  }

  /** `handleGetEvaluation`: fetches `idToFetch` when it is truthy, else the typed id. Any
      failure is a FETCH_ERROR carrying the error's message, whatever its shape. */
  function HandleGetEvaluation(p: Page, idToFetch: Option<string>, reply: Reply<EvaluationEntry>): (s: Step)
    ensures !s.page.loading
    ensures s.calls == [GetEvaluation(OrElse(idToFetch, p.documentId))]
    ensures reply.Ok? ==> s.page.currentResult == Some(reply.value) && s.page.errorObj.None?
    ensures reply.Fail? ==> s.page.currentResult.None? && s.page.errorObj == Some(ErrorObj("FETCH_ERROR", reply.message))
    ensures s.page.history == p.history && s.page.documents == p.documents
  {
    var b := BeginRequest(p);
    var id := OrElse(idToFetch, p.documentId);
    match reply
    case Ok(data) => Step(b.(currentResult := Some(data), loading := false), [GetEvaluation(id)])
    case Fail(msg) => Step(b.(errorObj := Some(ErrorObj("FETCH_ERROR", msg)), loading := false), [GetEvaluation(id)])
  }

  /** While a request runs, neither button can start another; once it ends, on success or
      failure, they are enabled again exactly when a document id is typed. */
  lemma RequestButtonsReenabled(p: Page, evaluation: Reply<EvaluationEntry>,
                                historyReply: Reply<seq<EvaluationEntry>>, idToFetch: Option<string>,
                                reply: Reply<EvaluationEntry>)
    ensures !CanRequest(BeginRequest(p))
    ensures CanRequest(HandleRunEvaluation(p, evaluation, historyReply).page) <==> p.documentId != ""
    ensures CanRequest(HandleGetEvaluation(p, idToFetch, reply).page) <==> p.documentId != ""
  {
  }

  /** A get-result failure is FETCH_ERROR even when its message carries a server tag that the
      run-analysis path would have classified. */
  lemma FetchErrorIgnoresTags(p: Page, kind: string, msg: string)
    requires '|' !in kind && '|' !in msg
    ensures HandleGetEvaluation(p, None, Fail(Some(Tag + kind + "|" + msg))).page.errorObj.value.kind == "FETCH_ERROR"
    ensures HandleRunEvaluation(p, Fail(Some(Tag + kind + "|" + msg)), Fail(None)).page.errorObj.value.kind == kind
  {
    ClassifyTagged(kind, msg);
  }

  // ---------------------------------------------------------------------------------------
  // Presentation decisions

  datatype ErrorStyle = ErrorStyle(bg: string, border: string, color: string, icon: string)

  const RateLimitStyle: ErrorStyle := ErrorStyle("#fff7ed", "#f97316", "#c2410c", "\U{23F3}")
  const DuplicateStyle: ErrorStyle := ErrorStyle("#eff6ff", "#3b82f6", "#1d4ed8", "\U{2139}\U{FE0F}")
  const ServerErrorStyle: ErrorStyle := ErrorStyle("#fef2f2", "#ef4444", "#b91c1c", "\U{1F4A5}")
  const DefaultStyle: ErrorStyle := ErrorStyle("#fef2f2", "#ef4444", "#991b1b", "\U{26A0}\U{FE0F}")

  /** `getErrorStyle`: three kinds have their own style, every other kind the default. */
  function GetErrorStyle(kind: string): (st: ErrorStyle)
    ensures st == DefaultStyle <==> kind != "RATE_LIMIT" && kind != "DUPLICATE" && kind != "SERVER_ERROR"
    ensures st == RateLimitStyle <==> kind == "RATE_LIMIT"
    ensures st == DuplicateStyle <==> kind == "DUPLICATE"
    ensures st == ServerErrorStyle <==> kind == "SERVER_ERROR"
  {
    if kind == "RATE_LIMIT" then RateLimitStyle
    else if kind == "DUPLICATE" then DuplicateStyle
    else if kind == "SERVER_ERROR" then ServerErrorStyle
    else DefaultStyle
  }

  /** `h.overallScore || 0` summed over the history. */
  function ScoreSum(history: seq<EvaluationEntry>): int
    decreases |history|
  {
    if |history| == 0 then 0
    else history[0].overallScore.GetOr(0) + ScoreSum(history[1..])
  }

  /** JavaScript `Math.round(s / n)` for n > 0: the integer nearest to s/n, halves rounding up. */
  function RoundedQuotient(s: int, n: int): (r: int)
    requires n > 0
    ensures 2 * n * r - n <= 2 * s < 2 * n * r + n
  {
    (2 * s + n) / (2 * n)
  }

  /** The "Avg Score" figure: 0 for an empty history. */
  function AverageScore(history: seq<EvaluationEntry>): (r: int)
    ensures |history| == 0 ==> r == 0
    ensures |history| > 0 ==>
              2 * |history| * r - |history| <= 2 * ScoreSum(history) < 2 * |history| * r + |history|
  {
    if |history| > 0 then RoundedQuotient(ScoreSum(history), |history|) else 0
  }

  ghost predicate ScoresWithin(history: seq<EvaluationEntry>, lo: int, hi: int) {
    forall i :: 0 <= i < |history| ==> lo <= history[i].overallScore.GetOr(0) <= hi
  }

  lemma {:induction false} ScoreSumBounds(history: seq<EvaluationEntry>, lo: int, hi: int)
    requires ScoresWithin(history, lo, hi)
    ensures lo * |history| <= ScoreSum(history) <= hi * |history|
    decreases |history|
  {
    if |history| > 0 {
      assert ScoresWithin(history[1..], lo, hi) by {
        forall i | 0 <= i < |history[1..]| ensures lo <= history[1..][i].overallScore.GetOr(0) <= hi {
          assert history[1..][i] == history[i + 1];
        }
      }
      ScoreSumBounds(history[1..], lo, hi);
      var n := |history[1..]|;
      assert lo <= history[0].overallScore.GetOr(0) <= hi;
      MulSucc(lo, n);
      MulSucc(hi, n);
    }
  }

  lemma MulSucc(a: int, n: nat)
    ensures a * (n + 1) == a + a * n
  {
  }

  lemma MulMonotone(n: int, a: int, b: int)
    requires n > 0 && a <= b
    ensures n * a <= n * b
  {
    assert n * b - n * a == n * (b - a);
  }

  /** Rounding keeps a mean within the bounds its terms lie in. */
  lemma RoundedQuotientWithin(s: int, n: int, lo: int, hi: int)
    requires n > 0 && lo * n <= s <= hi * n
    ensures lo <= RoundedQuotient(s, n) <= hi
  {
    var r := RoundedQuotient(s, n);
    if r > hi {
      MulMonotone(2 * n, hi + 1, r);
      assert false;
    }
    if r < lo {
      MulMonotone(2 * n, r, lo - 1);
      assert false;
    }
  }

  /** With every score (absent ones count as 0) in [lo, hi] and lo <= 0 <= hi, the average is
      in [lo, hi]; in particular scores in [0, 100] average into [0, 100]. */
  lemma AverageWithin(history: seq<EvaluationEntry>, lo: int, hi: int)
    requires lo <= 0 <= hi && ScoresWithin(history, lo, hi)
    ensures lo <= AverageScore(history) <= hi
  {
    if |history| > 0 {
      ScoreSumBounds(history, lo, hi);
      RoundedQuotientWithin(ScoreSum(history), |history|, lo, hi);
    }
  }

  /** A history whose scores all equal c averages to exactly c. */
  lemma AverageOfEqualScores(history: seq<EvaluationEntry>, c: int)
    requires |history| > 0 && ScoresWithin(history, c, c)
    ensures AverageScore(history) == c
  {
    ScoreSumBounds(history, c, c);
    RoundedQuotientWithin(ScoreSum(history), |history|, c, c);
  }
}

=== FILE: auth_service.dfy ===
/** The client session store (frontend/stde-app/src/services/authService.js).
    Browser `localStorage` is a map from key to text; the service owns two keys,
    `token` (the bearer token) and `user` (the stored user record's text). */
module AuthService {
  import opened Wrappers
  import opened Roles
  import opened UserJson

  type Storage = map<string, string>

  const TokenKey: string := "token"
  const UserKey: string := "user"

  /** Every key other than the session's two keeps its value. */
  ghost predicate OthersUnchanged(before: Storage, after: Storage) {
    && (forall k :: k in before && k != TokenKey && k != UserKey ==> k in after && after[k] == before[k])
    && (forall k :: k in after && k != TokenKey && k != UserKey ==> k in before)
  }

  /** The server's login answer. `asUser` is the answer read as a user record itself, which the
      login pages fall back to when the answer carries no `user` field. `user` is None when
      the field is missing; a field holding JSON null is not represented. */
  datatype LoginResponse = LoginResponse(token: Option<string>, user: Option<User>, asUser: User)

  datatype LoginStep = LoginStep(storage: Storage, outcome: Result<LoginResponse, string>)

  /** `localStorage.setItem('user', JSON.stringify(v))`: `JSON.stringify(undefined)` is
      `undefined`, which `setItem` stores as the text "undefined". */
  function UserText(v: Option<User>): string {
    match v
    case Some(u) => Encode(u)
    case None => "undefined"
  }

  /** `authService.login`: on an answer with a truthy token, writes both keys; otherwise writes
      nothing. A failed request leaves storage alone and throws the server's message or
      'Login failed'. */
  function Login(st: Storage, reply: Reply<LoginResponse>): (r: LoginStep)
    ensures reply.Fail? ==> r.storage == st && r.outcome == Failure(OrElse(reply.message, "Login failed"))
    ensures reply.Ok? ==> r.outcome == Success(reply.value)
    ensures reply.Ok? && Truthy(reply.value.token) ==>
              && TokenKey in r.storage && r.storage[TokenKey] == reply.value.token.value
              && UserKey in r.storage && r.storage[UserKey] == UserText(reply.value.user)
    ensures reply.Ok? && !Truthy(reply.value.token) ==> r.storage == st
    ensures OthersUnchanged(st, r.storage)
  {
    match reply
    case Fail(msg) => LoginStep(st, Failure(OrElse(msg, "Login failed")))
    case Ok(resp) =>
      if Truthy(resp.token) then
        LoginStep(st[TokenKey := resp.token.value][UserKey := UserText(resp.user)], Success(resp))
      else LoginStep(st, Success(resp))
  }

  /** `authService.logout`: removes both keys; calling it again changes nothing more. */
  function Logout(st: Storage): (r: Storage)
    ensures TokenKey !in r && UserKey !in r
    ensures r.Keys == st.Keys - {TokenKey, UserKey}
    ensures forall k :: k in r ==> r[k] == st[k]
  {
    st - {TokenKey, UserKey}
  }

  /** `authService.getCurrentUser`: a missing or empty `user` value reads as null; otherwise the
      text is parsed, and "null" parses to null. Text that does not parse makes it throw. */
  function GetCurrentUser(st: Storage): (r: Attempt<Option<User>>)
    ensures UserKey !in st || st[UserKey] == "" || st[UserKey] == "null" ==> r == Returned(None)
    ensures r.Threw? <==> UserKey in st && st[UserKey] != "" && st[UserKey] != "null" && Decode(st[UserKey]).None?
    ensures r.Returned? && r.value.Some? ==> UserKey in st && Decode(st[UserKey]) == r.value
  {
    if UserKey !in st || st[UserKey] == "" then Returned(None)
    else if st[UserKey] == "null" then Returned(None)
    else match Decode(st[UserKey])
      case Some(u) => Returned(Some(u))
      case None => Threw
  }

  /** `authService.isAuthenticated`: `!!localStorage.getItem('token')`. */
  function IsAuthenticated(st: Storage): (b: bool)
    ensures TokenKey !in st ==> !b
    ensures TokenKey in st ==> (b <==> |st[TokenKey]| > 0)
  {
    TokenKey in st && st[TokenKey] != ""
  }

  /** `authService.getUserType`: `user?.userType || null`. */
  function GetUserType(st: Storage): (r: Attempt<Option<Role>>)
    ensures r.Threw? <==> GetCurrentUser(st).Threw?
    ensures r == Returned(None) <==> (GetCurrentUser(st) == Returned(None) ||
                                     (GetCurrentUser(st).Returned? && GetCurrentUser(st).value.Some? &&
                                      GetCurrentUser(st).value.value.userType.None?))
  {
    match GetCurrentUser(st)
    case Threw => Threw
    case Returned(None) => Returned(None)
    case Returned(Some(u)) => Returned(u.userType)
  }

  /** After a login whose answer has a token and a user, the session is authenticated and
      the stored user reads back as the answer's user. */
  lemma LoginThenCurrentUser(st: Storage, resp: LoginResponse)
    requires Truthy(resp.token) && resp.user.Some?
    ensures IsAuthenticated(Login(st, Ok(resp)).storage)
    ensures GetCurrentUser(Login(st, Ok(resp)).storage) == Returned(resp.user)
    ensures GetUserType(Login(st, Ok(resp)).storage) == Returned(resp.user.value.userType)
  {
    var u := resp.user.value;
    DecodeEncode(u);
    EncodeNotSentinel(u);
  }

  /** A token-bearing answer without a user stores the text "undefined", on which
      `getCurrentUser` throws. */
  lemma LoginWithoutUserBreaksRead(st: Storage, resp: LoginResponse)
    requires Truthy(resp.token) && resp.user.None?
    ensures IsAuthenticated(Login(st, Ok(resp)).storage)
    ensures GetCurrentUser(Login(st, Ok(resp)).storage) == Threw
  {
    var s := Login(st, Ok(resp)).storage;
    assert s[UserKey] == "undefined";
    var open := "{\"id\":";
    assert "undefined"[..|open|][0] != open[0];
    assert Expect("undefined", open).None?;
  }

  /** After logout nobody is signed in and nothing is stored for the session; a second logout
      is the identity. */
  lemma LogoutClears(st: Storage)
    ensures !IsAuthenticated(Logout(st))
    ensures GetCurrentUser(Logout(st)) == Returned(None)
    ensures GetUserType(Logout(st)) == Returned(None)
    ensures Logout(Logout(st)) == Logout(st)
  {
  }

  /** Authentication looks at the token key only: whatever the `user` key holds, or whether it
      is there at all, does not change the answer. */
  lemma AuthenticationIgnoresUser(st: Storage, text: string)
    ensures IsAuthenticated(st[UserKey := text]) == IsAuthenticated(st)
    ensures IsAuthenticated(st - {UserKey}) == IsAuthenticated(st)
  {
  }

  /** The payload `authService.register` posts. It reads five fields of the caller's object
      by exact key; a field the caller did not supply arrives `undefined` (None). */
  datatype RegisterPayload = RegisterPayload(
    firstname: Option<string>,
    lastname: Option<string>,
    email: Option<string>,
    password: Option<string>,
    userType: string,
    avatarUrl: Option<string>)

  function Field(data: map<string, string>, key: string): (r: Option<string>)
    ensures r.Some? <==> key in data
    ensures r.Some? ==> r.value == data[key]
  {
    if key in data then Some(data[key]) else None
  }

  datatype RegisterStep = RegisterStep(payload: RegisterPayload, outcome: Result<(), string>)

  /** `authService.register`: builds the payload, posts it, and on failure throws the server's
      message or 'Registration failed'. */
  function Register(data: map<string, string>, reply: Reply<()>): (r: RegisterStep)
    ensures r.payload.firstname == Field(data, "firstname")
    ensures r.payload.lastname == Field(data, "lastname")
    ensures r.payload.email == Field(data, "email")
    ensures r.payload.password == Field(data, "password")
    ensures r.payload.userType == OrElse(Field(data, "userType"), "STUDENT")
    ensures r.payload.avatarUrl == None
    ensures reply.Ok? <==> r.outcome.Success?
    ensures reply.Fail? ==> r.outcome == Failure(OrElse(reply.message, "Registration failed"))
  {
    var payload := RegisterPayload(
      Field(data, "firstname"),
      Field(data, "lastname"),
      Field(data, "email"),
      Field(data, "password"),
      OrElse(Field(data, "userType"), "STUDENT"),
      None);
    match reply
    case Ok(_) => RegisterStep(payload, Success(()))
    case Fail(msg) => RegisterStep(payload, Failure(OrElse(msg, "Registration failed")))
  }

  /** The payload depends on the five fields it reads and on nothing else the caller passes. */
  lemma RegisterReadsOnlyFiveFields(d1: map<string, string>, d2: map<string, string>, reply: Reply<()>)
    requires forall k :: k in {"firstname", "lastname", "email", "password", "userType"} ==>
               Field(d1, k) == Field(d2, k)
    ensures Register(d1, reply).payload == Register(d2, reply).payload
  {
    assert Field(d1, "firstname") == Field(d2, "firstname");
    assert Field(d1, "lastname") == Field(d2, "lastname");
    assert Field(d1, "email") == Field(d2, "email");
    assert Field(d1, "password") == Field(d2, "password");
    assert Field(d1, "userType") == Field(d2, "userType");
  }

  /** The body of the profile answer; `message` stands for whatever else the server sends. */
  datatype ProfileResponse = ProfileResponse(user: Option<User>, message: Option<string>)

  /** What `updateProfile` resolves to: the user when the body carries one, the whole body otherwise. */
  datatype ProfileAnswer = UpdatedUser(user: User) | WholeBody(body: ProfileResponse)

  datatype ProfileStep = ProfileStep(storage: Storage, outcome: Result<ProfileAnswer, string>)

  /** `authService.updateProfile`: rewrites `user` only when the answer carries a user, and
      never touches `token`. A failure throws the server's `error` field or a fixed message. */
  function UpdateProfile(st: Storage, reply: Reply<ProfileResponse>): (r: ProfileStep)
    ensures TokenKey in r.storage <==> TokenKey in st
    ensures TokenKey in st ==> r.storage[TokenKey] == st[TokenKey]
    ensures reply.Ok? && reply.value.user.Some? ==>
              GetCurrentUser(r.storage) == Returned(reply.value.user) &&
              r.outcome == Success(UpdatedUser(reply.value.user.value))
    ensures reply.Ok? && reply.value.user.None? ==> r.outcome == Success(WholeBody(reply.value))
    ensures !(reply.Ok? && reply.value.user.Some?) ==> r.storage == st
    ensures reply.Fail? ==> r.outcome == Failure(OrElse(reply.message, "Failed to update profile"))
    ensures OthersUnchanged(st, r.storage)
  {
    match reply
    case Fail(msg) => ProfileStep(st, Failure(OrElse(msg, "Failed to update profile")))
    case Ok(resp) =>
      match resp.user
      case Some(u) =>
        DecodeEncode(u);
        EncodeNotSentinel(u);
        ProfileStep(st[UserKey := Encode(u)], Success(UpdatedUser(u)))
      case None => ProfileStep(st, Success(WholeBody(resp)))
  }
}

=== FILE: evaluation_controller.dfy ===
/** The HTTP mapping of the evaluation endpoints
    (backend/src/main/java/citu/stde/controller/EvaluationController.java): which exceptions of
    the service become which status code and body, and which escape the controller. Composed
    with the service, this decides what a client of `POST /evaluate/{id}` actually receives. */
module EvaluationController {
  import opened Wrappers
  import opened Strings
  import opened EvaluationService

  /** A controller's answer: a 200 with a body, an error status with the `error` text, or an
      exception that escapes the handler (left to the framework's default handling). */
  datatype HttpReply<+T> = Answered(body: T) | Error(status: int, error: string) | Propagated(exn: JavaException)

  const BadRequest: int := 400
  const Forbidden: int := 403
  const TooManyRequests: int := 429
  const InternalServerError: int := 500

  /** `getUserId`: the id registered for the authenticated email. */
  function GetUserId(lookup: Option<Id>): (r: Result<Id, JavaException>)
    ensures r.Success? <==> lookup.Some?
    ensures lookup.Some? ==> r.value == lookup.value
    ensures lookup.None? ==> r.error == Throw(Runtime, UserNotFound)
  {
    match lookup
    case Some(id) => Success(id)
    case None => Failure(Throw(Runtime, UserNotFound))
  }

  /** `ResponseEntity.status(s).body(Map.of("error", message))`: `Map.of` rejects a null value,
      so a null message makes the handler itself throw. */
  function ErrorBody<T>(status: int, message: Option<string>): (r: HttpReply<T>)
    ensures message.Some? ==> r == Error(status, message.value)
    ensures message.None? ==> r == Propagated(JavaException(NullPointer, None))
  {
    match message
    case Some(m) => Error(status, m)
    case None => Propagated(JavaException(NullPointer, None))
  }

  /** The tagged reply: the status with every "<tag>|" removed from the message (Java
      `String.replace` removes all occurrences). */
  function Tagged<T>(status: int, m: string, tag: string): HttpReply<T> {
    Error(status, ReplaceAll(m, tag + "|", ""))
  }

  /** The two catch blocks of `evaluateDocument`. */
  function MapEvaluateFailure<T>(e: JavaException): (r: HttpReply<T>)
    ensures r.Error? && r.status == BadRequest ==> e.cls == IllegalArgument
    ensures e.cls == IllegalArgument ==> r.Error? == e.message.Some? && (r.Error? ==> r.status == BadRequest)
    ensures e.cls == IllegalArgument && e.message.Some? && !Contains(e.message.value, InvalidDocumentTag) ==>
              r == Error(BadRequest, e.message.value)
    ensures e.cls != IllegalArgument ==>
              (r.Error? <==> e.cls != Checked && e.message.Some? &&
                             (Contains(e.message.value, QuotaTag) || Contains(e.message.value, RateLimitTag) ||
                              Contains(e.message.value, ServerErrorTag)))
    ensures e.cls == IllegalArgument && e.message.Some? && Contains(e.message.value, InvalidDocumentTag) ==>
              r == Error(BadRequest, ReplaceAll(e.message.value, InvalidDocumentTag + "|", ""))
    ensures e.cls !in {IllegalArgument, Checked} && e.message.Some? && Contains(e.message.value, QuotaTag) ==>
              r == Error(TooManyRequests, ReplaceAll(e.message.value, QuotaTag + "|", ""))
    ensures e.cls !in {IllegalArgument, Checked} && e.message.Some? && !Contains(e.message.value, QuotaTag) &&
            Contains(e.message.value, RateLimitTag) ==>
              r == Error(TooManyRequests, ReplaceAll(e.message.value, RateLimitTag + "|", ""))
    ensures e.cls !in {IllegalArgument, Checked} && e.message.Some? && !Contains(e.message.value, QuotaTag) &&
            !Contains(e.message.value, RateLimitTag) && Contains(e.message.value, ServerErrorTag) ==>
              r == Error(InternalServerError, ReplaceAll(e.message.value, ServerErrorTag + "|", ""))
    ensures r.Propagated? && e.message.Some? ==> r.exn == e
    ensures !r.Answered?
  {
    match e.message
    case None =>
      if e.cls == IllegalArgument then Propagated(JavaException(NullPointer, None)) else Propagated(e)
    case Some(m) =>
      if e.cls == IllegalArgument then
        if Contains(m, InvalidDocumentTag) then Tagged(BadRequest, m, InvalidDocumentTag)
        else ErrorBody(BadRequest, e.message)
      else if e.cls == Checked then Propagated(e)
      else if Contains(m, QuotaTag) then Tagged(TooManyRequests, m, QuotaTag)
      else if Contains(m, RateLimitTag) then Tagged(TooManyRequests, m, RateLimitTag)
      else if Contains(m, ServerErrorTag) then Tagged(InternalServerError, m, ServerErrorTag)
      else Propagated(e)
  }

  /** The tags are tested in the order QUOTA_EXCEEDED, RATE_LIMIT, SERVER_ERROR: a message
      carrying the quota tag is a 429 whatever else it carries. */
  lemma QuotaTagWins(cls: ExceptionClass, m: string)
    requires cls in {Runtime, Security, NullPointer} && Contains(m, QuotaTag)
    ensures MapEvaluateFailure<()>(JavaException(cls, Some(m))) == Error(TooManyRequests, ReplaceAll(m, QuotaTag + "|", ""))
  {
  }

  /** `POST /evaluate/{documentId}`. */
  function EvaluateEndpoint(lookup: Option<Id>, documentId: Id, doc: Option<DocumentRecord>,
                            quota: Option<QuotaState>, now: int, p: ProcessingAnswers): (r: HttpReply<Evaluation>)
    ensures lookup.None? ==> r == Propagated(Throw(Runtime, UserNotFound))
    ensures lookup.Some? ==>
              var run := EvaluateDocument(documentId, lookup.value, doc, quota, now, p);
              (r.Answered? <==> run.outcome.Success?) && (r.Answered? ==> r.body == run.outcome.value)
  {
    match GetUserId(lookup)
    case Failure(e) =>
      NoTagInUserNotFound();
      MapEvaluateFailure(e)
    case Success(userId) =>
      match EvaluateDocument(documentId, userId, doc, quota, now, p).outcome
      case Success(ev) => Answered(ev)
      case Failure(e) => MapEvaluateFailure(e)
  }

  lemma NoTagInUserNotFound()
    ensures !Contains(UserNotFound, QuotaTag) && !Contains(UserNotFound, RateLimitTag) && !Contains(UserNotFound, ServerErrorTag)
    ensures !Contains(UserNotFound, InvalidDocumentTag)
  {
    MissingHeadNotContained(UserNotFound, QuotaTag);
    MissingHeadNotContained(UserNotFound, RateLimitTag);
    MissingHeadNotContained(UserNotFound, ServerErrorTag);
    MissingHeadNotContained(UserNotFound, InvalidDocumentTag);
  }

  /** A 400 from the evaluate endpoint only ever says the document or the user was not found:
      processing failures never arrive as `IllegalArgumentException`. */
  lemma BadRequestOnlyForLookups(lookup: Option<Id>, documentId: Id, doc: Option<DocumentRecord>,
                                 quota: Option<QuotaState>, now: int, p: ProcessingAnswers)
    requires EvaluateEndpoint(lookup, documentId, doc, quota, now, p).Error?
    requires EvaluateEndpoint(lookup, documentId, doc, quota, now, p).status == BadRequest
    ensures EvaluateEndpoint(lookup, documentId, doc, quota, now, p).error in {"Document not found", UserNotFound}
  {
    var r := EvaluateEndpoint(lookup, documentId, doc, quota, now, p);
    assert lookup.Some?;
    var run := EvaluateDocument(documentId, lookup.value, doc, quota, now, p);
    assert run.outcome.Failure? && r == MapEvaluateFailure(run.outcome.error);
    var e := run.outcome.error;
    assert e.cls == IllegalArgument;
    IllegalArgumentOnlyFromLookups(documentId, lookup.value, doc, quota, now, p);
    LookupMessagesUntagged();
    if e == Throw(IllegalArgument, "Document not found") {
      assert r == Error(BadRequest, "Document not found");
    } else {
      assert r == Error(BadRequest, UserNotFound);
    }
  }

  /** Neither lookup failure carries the invalid-document tag. */
  lemma LookupMessagesUntagged()
    ensures !Contains("Document not found", InvalidDocumentTag)
    ensures !Contains(UserNotFound, InvalidDocumentTag)
  {
    AbsentByIndex(UserNotFound, 'T');
    AbsentByIndex("Document not found", 'T');
    assert InvalidDocumentTag[0] == 'T';
    MissingHeadNotContained(UserNotFound, InvalidDocumentTag);
    MissingHeadNotContained("Document not found", InvalidDocumentTag);
  }

  // ---------------------------------------------------------------------------------------
  // The invalid-document path

  /** The invalid-document message mentions "429" in no case. */
  lemma InvalidDocumentLacksDigits()
    ensures !Contains(ToLower(InvalidDocumentMessage), "429")
  {
    InvalidDocumentTagLetters();
    InvalidDocumentTextLetters();
    ToLowerAvoids(InvalidDocumentMessage, '4');
    MissingHeadNotContained(ToLower(InvalidDocumentMessage), "429");
  }

  /** "Software Testing Document." has no 'l', so it cannot hold "rate limit" in any case. */
  lemma SoftwareLacksRateLimit()
    ensures !Contains(ToLower("Software Testing Document."), "rate limit")
  {
    var lb := ToLower("Software Testing Document.");
    var pat := "rate limit";
    SoftwareClauseLetters();
    ToLowerAvoids("Software Testing Document.", 'l');
    if Contains(lb, pat) {
      ContainsSuffixOfPattern(lb, pat, 5);
      MissingHeadNotContained(lb, pat[5..]);
    }
  }

  /** The invalid-document message mentions "rate limit" in no case. */
  lemma InvalidDocumentLacksRateLimit()
    ensures !Contains(ToLower(InvalidDocumentMessage), "rate limit")
  {
    var a := InvalidDocumentTag + "|" + "The uploaded document is not a ";
    var b := "Software Testing Document.";
    assert InvalidDocumentMessage == a + b;
    ToLowerConcat(a, b);
    InvalidDocumentTagLetters();
    UploadedClauseLetters();
    ToLowerAvoids(a, 'r');
    SoftwareLacksRateLimit();
    NotContainedAfterFreePrefix(ToLower(a), ToLower(b), "rate limit");
  }

  lemma UploadedClauseLetters()
    ensures var s := "The uploaded document is not a ";
            'I' !in s && 'Q' !in s && 'R' !in s && 'r' !in s && '4' !in s
  {
    var s := "The uploaded document is not a ";
    assert forall i | 0 <= i < |s| :: s[i] != 'I' && s[i] != 'Q' && s[i] != 'R' && s[i] != 'r' && s[i] != '4';
  }

  lemma SoftwareClauseLetters()
    ensures var s := "Software Testing Document.";
            'I' !in s && 'Q' !in s && 'R' !in s && 'l' !in s && 'L' !in s && '4' !in s
  {
    var s := "Software Testing Document.";
    assert forall i | 0 <= i < |s| :: s[i] != 'I' && s[i] != 'Q' && s[i] != 'R' && s[i] != 'l' && s[i] != 'L' && s[i] != '4';
  }

  /** The tag and its bar carry no lower-case letter, no R, no Q and no digit. */
  lemma InvalidDocumentTagLetters()
    ensures var s := InvalidDocumentTag + "|"; 'r' !in s && 'R' !in s && 'Q' !in s && '4' !in s
  {
    var a := "TYPE:";
    var b := "INVALID_DOCUMENT";
    assert forall i | 0 <= i < |a| :: a[i] != 'r' && a[i] != 'R' && a[i] != 'Q' && a[i] != '4';
    assert forall i | 0 <= i < |b| :: b[i] != 'r' && b[i] != 'R' && b[i] != 'Q' && b[i] != '4';
  }

  /** The letters the tag tests below hang on, none of which the sentence uses. */
  lemma InvalidDocumentTextLetters()
    ensures 'I' !in InvalidDocumentText && 'Q' !in InvalidDocumentText && 'R' !in InvalidDocumentText
    ensures '4' !in InvalidDocumentText
  {
    UploadedClauseLetters();
    SoftwareClauseLetters();
  }

  lemma InvalidDocumentLetters()
    ensures 'Q' !in InvalidDocumentMessage && 'R' !in InvalidDocumentMessage
  {
    InvalidDocumentTagLetters();
    InvalidDocumentTextLetters();
  }

  /** A message with neither Q nor R carries none of the three tags the RuntimeException
      handler looks for. */
  lemma NoHandledTagWithoutQandR(m: string)
    requires 'Q' !in m && 'R' !in m
    ensures !Contains(m, QuotaTag) && !Contains(m, RateLimitTag) && !Contains(m, ServerErrorTag)
  {
    if Contains(m, QuotaTag) {
      ContainsSuffixOfPattern(m, QuotaTag, 5);
      MissingHeadNotContained(m, QuotaTag[5..]);
    }
    if Contains(m, RateLimitTag) {
      ContainsSuffixOfPattern(m, RateLimitTag, 5);
      MissingHeadNotContained(m, RateLimitTag[5..]);
    }
    if Contains(m, ServerErrorTag) {
      ContainsSuffixOfPattern(m, ServerErrorTag, 7);
      MissingHeadNotContained(m, ServerErrorTag[7..]);
    }
  }

  /** The invalid-document message carries none of the handled tags. */
  lemma InvalidDocumentLacksHandledTags()
    ensures !Contains(InvalidDocumentMessage, QuotaTag)
    ensures !Contains(InvalidDocumentMessage, RateLimitTag)
    ensures !Contains(InvalidDocumentMessage, ServerErrorTag)
  {
    InvalidDocumentLetters();
    NoHandledTagWithoutQandR(InvalidDocumentMessage);
  }

  lemma InvalidDocumentIsTagged()
    ensures StartsWith(InvalidDocumentMessage, TypeTag)
    ensures Contains(InvalidDocumentMessage, InvalidDocumentTag)
  {
    assert InvalidDocumentMessage == TypeTag + ("INVALID_DOCUMENT" + "|" + InvalidDocumentText);
    ConcatStartsWith(TypeTag, "INVALID_DOCUMENT" + "|" + InvalidDocumentText);
    assert InvalidDocumentMessage == InvalidDocumentTag + ("|" + InvalidDocumentText);
    ConcatStartsWith(InvalidDocumentTag, "|" + InvalidDocumentText);
    PrefixOccurs(InvalidDocumentMessage, InvalidDocumentTag);
  }

  /** The service's catch block turns the invalid-document rejection into a plain
      RuntimeException with the same text. */
  lemma InvalidDocumentRewrapped()
    ensures Rewrap(Throw(IllegalArgument, InvalidDocumentMessage)) == Throw(Runtime, InvalidDocumentMessage)
    ensures RewrapIntended(Throw(IllegalArgument, InvalidDocumentMessage)) == Throw(IllegalArgument, InvalidDocumentMessage)
  {
    InvalidDocumentLacksDigits();
    InvalidDocumentLacksRateLimit();
    InvalidDocumentIsTagged();
  }

  /** The answers under which the service rejects a document as not a software testing
      document: a registered owner within quota, content fetched, no cached result, and a NO
      from the classifier. */
  predicate RejectedAsNotTesting(lookup: Option<Id>, doc: Option<DocumentRecord>, quota: Option<QuotaState>,
                                 now: int, p: ProcessingAnswers) {
    && lookup.Some? && doc.Some? && doc.value.ownerId == lookup.value
    && CheckAndIncrementUsage(quota, now).Success?
    && p.content.Success? && p.cached.None? && !p.isTestingDocument
  }

  /** As written, the invalid-document failure leaves the service as a plain RuntimeException
      carrying no tag the RuntimeException handler knows, so it escapes the controller: the
      400 branch written for it is never taken. */
  lemma InvalidDocumentEscapes(lookup: Option<Id>, documentId: Id, doc: Option<DocumentRecord>,
                               quota: Option<QuotaState>, now: int, p: ProcessingAnswers)
    requires RejectedAsNotTesting(lookup, doc, quota, now, p)
    ensures EvaluateEndpoint(lookup, documentId, doc, quota, now, p) == Propagated(Throw(Runtime, InvalidDocumentMessage))
  {
    InvalidDocumentRewrapped();
    InvalidDocumentLacksHandledTags();
  }

  /** `POST /evaluate/{documentId}` over the service with the intended catch block. */
  function EvaluateEndpointIntended(lookup: Option<Id>, documentId: Id, doc: Option<DocumentRecord>,
                                    quota: Option<QuotaState>, now: int, p: ProcessingAnswers): (r: HttpReply<Evaluation>)
    ensures (r.Answered? <==> EvaluateEndpoint(lookup, documentId, doc, quota, now, p).Answered?)
    ensures r.Answered? ==> r == EvaluateEndpoint(lookup, documentId, doc, quota, now, p)
  {
    match GetUserId(lookup)
    case Failure(e) =>
      NoTagInUserNotFound();
      MapEvaluateFailure(e)
    case Success(userId) =>
      match EvaluateDocumentIntended(documentId, userId, doc, quota, now, p).outcome
      case Success(ev) => Answered(ev)
      case Failure(e) => MapEvaluateFailure(e)
  }

  /** With the intended catch block, the rejection reaches the client as the 400 its handler
      was written for, with the tag removed. */
  lemma InvalidDocumentIntendedIsBadRequest(lookup: Option<Id>, documentId: Id, doc: Option<DocumentRecord>,
                                            quota: Option<QuotaState>, now: int, p: ProcessingAnswers)
    requires RejectedAsNotTesting(lookup, doc, quota, now, p)
    ensures EvaluateEndpointIntended(lookup, documentId, doc, quota, now, p) ==
              Error(BadRequest, InvalidDocumentText)
  {
    InvalidDocumentRewrapped();
    InvalidDocumentIsTagged();
    InvalidDocumentTagRemoved();
  }

  /** Removing "TYPE:INVALID_DOCUMENT|" from the message leaves exactly its text. */
  lemma InvalidDocumentTagRemoved()
    ensures ReplaceAll(InvalidDocumentMessage, InvalidDocumentTag + "|", "") == InvalidDocumentText
  {
    var pat := InvalidDocumentTag + "|";
    ReplaceAllLeading(pat, InvalidDocumentText, "");
    InvalidDocumentTextLetters();
    if Contains(InvalidDocumentText, pat) {
      ContainsSuffixOfPattern(InvalidDocumentText, pat, 5);
      MissingHeadNotContained(InvalidDocumentText, pat[5..]);
    }
    ReplaceAllAbsent(InvalidDocumentText, pat, "");
  }

  /** The correction changes nothing for a failure that is not an `IllegalArgumentException`. */
  lemma IntendedAgreesOnRuntimeFailures(lookup: Option<Id>, documentId: Id, doc: Option<DocumentRecord>,
                                        quota: Option<QuotaState>, now: int, p: ProcessingAnswers)
    requires lookup.Some? && doc.Some?
    requires var r := Process(doc.value, lookup.value, p); r.Failure? ==> r.error.cls != IllegalArgument
    ensures EvaluateEndpointIntended(lookup, documentId, doc, quota, now, p) ==
              EvaluateEndpoint(lookup, documentId, doc, quota, now, p)
  {
  }

  // ---------------------------------------------------------------------------------------
  // Other routes through the evaluate endpoint

  lemma QuotaTextLacksT(minutes: nat)
    ensures 'T' !in QuotaText(minutes)
  {
    NatToStringLacks(HourlyLimit, 'T');
    NatToStringLacks(minutes, 'T');
    AbsentByIndex("You have used all ", 'T');
    AbsentByIndex(" analysis attempts ", 'T');
    AbsentByIndex("for this hour. Resets in ", 'T');
    AbsentByIndex(" minutes.", 'T');
  }

  /** The quota message is tagged, and removing its tag leaves the sentence. */
  lemma QuotaMessageUntagged(minutes: nat)
    ensures Contains(QuotaMessage(minutes), QuotaTag)
    ensures ReplaceAll(QuotaMessage(minutes), QuotaTag + "|", "") == QuotaText(minutes)
  {
    var body := QuotaText(minutes);
    var pat := QuotaTag + "|";
    ConcatStartsWith(QuotaTag, "|" + body);
    assert QuotaMessage(minutes) == QuotaTag + ("|" + body);
    PrefixOccurs(QuotaMessage(minutes), QuotaTag);
    ReplaceAllLeading(pat, body, "");
    QuotaTextLacksT(minutes);
    MissingHeadNotContained(body, pat);
    ReplaceAllAbsent(body, pat, "");
  }

  /** A full quota window reaches the client as a 429 whose body is the service's sentence
      without its tag. */
  lemma QuotaExceededIsTooManyRequests(userId: Id, documentId: Id, doc: DocumentRecord, q: QuotaState,
                                       now: int, p: ProcessingAnswers)
    requires doc.ownerId == userId && !Lapsed(q, now) && q.count.GetOr(0) >= HourlyLimit
    ensures EvaluateEndpoint(Some(userId), documentId, Some(doc), Some(q), now, p) ==
              Error(TooManyRequests, QuotaText((q.windowStart.value + HourSeconds - now) / 60))
  {
    var n := (q.windowStart.value + HourSeconds - now) / 60;
    assert CheckAndIncrementUsage(Some(q), now) == Failure(Throw(Runtime, QuotaMessage(n)));
    QuotaFailureMapped(n);
  }

  /** The quota failure, through the RuntimeException handler. */
  lemma QuotaFailureMapped(n: nat)
    ensures MapEvaluateFailure<Evaluation>(Throw(Runtime, QuotaMessage(n))) == Error(TooManyRequests, QuotaText(n))
  {
    QuotaMessageUntagged(n);
  }

  /** The rate-limit message uses neither Q nor, past its tag, T. */
  lemma RateLimitLetters()
    ensures 'Q' !in RateLimitTag + "|" && 'Q' !in RateLimitText && 'T' !in RateLimitText
  {
    var a := "TYPE:";
    var b := "RATE_LIMIT";
    var c := "AI is busy. ";
    var d := "Please wait 30 seconds.";
    assert forall i | 0 <= i < |a| :: a[i] != 'Q';
    assert forall i | 0 <= i < |b| :: b[i] != 'Q';
    assert forall i | 0 <= i < |c| :: c[i] != 'Q' && c[i] != 'T';
    assert forall i | 0 <= i < |d| :: d[i] != 'Q' && d[i] != 'T';
  }

  /** The rate-limit message is tagged and lacks the quota tag. */
  lemma RateLimitMessageTagged()
    ensures Contains(RateLimitMessage, RateLimitTag) && !Contains(RateLimitMessage, QuotaTag)
  {
    ConcatStartsWith(RateLimitTag, "|" + RateLimitText);
    assert RateLimitMessage == RateLimitTag + ("|" + RateLimitText);
    PrefixOccurs(RateLimitMessage, RateLimitTag);
    RateLimitLetters();
    if Contains(RateLimitMessage, QuotaTag) {
      ContainsSuffixOfPattern(RateLimitMessage, QuotaTag, 5);
      MissingHeadNotContained(RateLimitMessage, QuotaTag[5..]);
    }
  }

  /** Removing its tag from the rate-limit message leaves the request to wait. */
  lemma RateLimitMessageUntagged()
    ensures ReplaceAll(RateLimitMessage, RateLimitTag + "|", "") == RateLimitText
  {
    var pat := RateLimitTag + "|";
    ReplaceAllLeading(pat, RateLimitText, "");
    RateLimitLetters();
    MissingHeadNotContained(RateLimitText, pat);
    ReplaceAllAbsent(RateLimitText, pat, "");
  }

  /** An AI failure that mentions "429" reaches the client as a 429 asking to wait. */
  lemma AiRateLimitIsTooManyRequests(userId: Id, documentId: Id, doc: DocumentRecord, quota: Option<QuotaState>,
                                     now: int, p: ProcessingAnswers)
    requires doc.ownerId == userId && CheckAndIncrementUsage(quota, now).Success?
    requires p.content.Success? && p.cached.None? && p.isTestingDocument
    requires p.ai.Failure? && p.ai.error.message.Some? && Contains(ToLower(p.ai.error.message.value), "429")
    ensures EvaluateEndpoint(Some(userId), documentId, Some(doc), quota, now, p) ==
              Error(TooManyRequests, RateLimitText)
  {
    RateLimitMessageTagged();
    RateLimitMessageUntagged();
  }

  /** A text without "TYPE:" contains none of the tags, nor a tag followed by "|". */
  lemma NoTagWithoutMarker(m: string, tag: string)
    requires |tag| >= 5 && tag[..5] == TypeTag && !Contains(m, TypeTag)
    ensures !Contains(m, tag)
  {
    if Contains(m, tag) {
      ContainsPrefixOfPattern(m, tag, 5);
    }
  }

  lemma ServerErrorLetters()
    ensures 'T' !in ServerErrorLead && 'T' !in "SERVER_ERROR"
  {
    var a := "SERVER_ERROR";
    assert forall i | 0 <= i < |a| :: a[i] != 'T';
    AbsentByIndex(ServerErrorLead, 'T');
  }

  /** The server-error message of an untagged failure carries neither the quota nor the
      rate-limit tag. */
  lemma ServerErrorLacksEarlierTags(m: string)
    requires !Contains(m, TypeTag)
    ensures !Contains(ServerErrorPrefix + m, QuotaTag) && !Contains(ServerErrorPrefix + m, RateLimitTag)
  {
    assert QuotaTag[..5] == TypeTag && RateLimitTag[..5] == TypeTag;
    NoTagWithoutMarker(m, QuotaTag);
    NoTagWithoutMarker(m, RateLimitTag);
    var head := ServerErrorPrefix;
    var s := head + m;
    assert head[1..] == "YPE:" + "SERVER_ERROR" + "|" + ServerErrorLead;
    ServerErrorLetters();
    assert 'T' !in head[1..];
    assert s[..|QuotaTag|][5] == 'S' && s[..|RateLimitTag|][5] == 'S';
    NotContainedPastHeadAndFreeText(head, m, QuotaTag);
    NotContainedPastHeadAndFreeText(head, m, RateLimitTag);
  }

  /** Removing "TYPE:SERVER_ERROR|" from the server-error message of an untagged failure
      leaves the lead and the failure's text. */
  lemma ServerErrorUntagged(m: string)
    requires !Contains(m, TypeTag)
    ensures Contains(ServerErrorPrefix + m, ServerErrorTag)
    ensures ReplaceAll(ServerErrorPrefix + m, ServerErrorTag + "|", "") == ServerErrorLead + m
  {
    var s := ServerErrorPrefix + m;
    var pat := ServerErrorTag + "|";
    assert s == pat + (ServerErrorLead + m);
    assert s == ServerErrorTag + ("|" + ServerErrorLead + m);
    ConcatStartsWith(ServerErrorTag, "|" + ServerErrorLead + m);
    PrefixOccurs(s, ServerErrorTag);
    ReplaceAllLeading(pat, ServerErrorLead + m, "");
    ServerErrorLetters();
    ReplaceAllFreePrefix(ServerErrorLead, m, pat, "");
    assert pat[..5] == TypeTag;
    NoTagWithoutMarker(m, pat);
    ReplaceAllAbsent(m, pat, "");
  }

  /** A processing failure whose message carries no tag and no rate-limit wording reaches the
      client as a 500 that quotes it after a fixed lead. */
  lemma UntaggedFailureIsServerError(userId: Id, documentId: Id, doc: DocumentRecord, quota: Option<QuotaState>,
                                     now: int, p: ProcessingAnswers, m: string)
    requires doc.ownerId == userId && CheckAndIncrementUsage(quota, now).Success?
    requires Process(doc, userId, p).Failure? && Process(doc, userId, p).error.message == Some(m)
    requires !Contains(m, TypeTag) && !Contains(ToLower(m), "429") && !Contains(ToLower(m), "rate limit")
    ensures EvaluateEndpoint(Some(userId), documentId, Some(doc), quota, now, p) ==
              Error(InternalServerError, ServerErrorLead + m)
  {
    if StartsWith(m, TypeTag) {
      PrefixOccurs(m, TypeTag);
    }
    ServerErrorLacksEarlierTags(m);
    ServerErrorUntagged(m);
  }

  /** An unknown authenticated email is not answered by the controller: the lookup's
      "User not found" escapes it. */
  lemma UnknownEmailEscapes(documentId: Id, doc: Option<DocumentRecord>, quota: Option<QuotaState>,
                            now: int, p: ProcessingAnswers)
    ensures EvaluateEndpoint(None, documentId, doc, quota, now, p) == Propagated(Throw(Runtime, UserNotFound))
  {
  }

  // ---------------------------------------------------------------------------------------
  // Override endpoint

  const OverriddenMessage: string := "Score overridden"

  /** `PUT /override/{documentId}`: a `SecurityException` is a 403, any other exception
      (including the unknown-email failure and the score-range check) a 500. */
  function OverrideEndpoint(lookup: Option<Id>, newScore: Option<int>, doc: Option<DocumentRecord>,
                            ownership: Option<JavaException>, existing: Option<Evaluation>): (r: HttpReply<(string, Evaluation)>)
    ensures lookup.None? ==> r == Error(InternalServerError, UserNotFound)
    ensures lookup.Some? ==>
              var s := OverrideEvaluationScore(lookup.value, newScore, doc, ownership, existing);
              && (s.Success? ==> r == Answered((OverriddenMessage, s.value.evaluation)))
              && (s.Failure? && s.error.cls == Security ==> r == ErrorBody(Forbidden, s.error.message))
              && (s.Failure? && s.error.cls != Security ==> r == ErrorBody(InternalServerError, s.error.message))
  {
    match GetUserId(lookup)
    case Failure(e) => ErrorBody(InternalServerError, e.message)
    case Success(teacherId) =>
      match OverrideEvaluationScore(teacherId, newScore, doc, ownership, existing)
      case Success(run) => Answered((OverriddenMessage, run.evaluation))
      case Failure(e) => if e.cls == Security then ErrorBody(Forbidden, e.message) else ErrorBody(InternalServerError, e.message)
  }

  /** An out-of-range score is answered with a 500, not a 400, and a document outside any
      classroom with a 403; an in-range score for a verified teacher succeeds with every
      score set to it. */
  lemma OverrideOutcomes(teacherId: Id, newScore: Option<int>, doc: DocumentRecord, existing: Option<Evaluation>)
    ensures (newScore.None? || newScore.value < 0 || newScore.value > 100) ==>
              OverrideEndpoint(Some(teacherId), newScore, Some(doc), None, existing) == Error(InternalServerError, ScoreOutOfRange)
    ensures newScore.Some? && 0 <= newScore.value <= 100 && doc.classroomId.None? ==>
              OverrideEndpoint(Some(teacherId), newScore, Some(doc), None, existing).Error? &&
              OverrideEndpoint(Some(teacherId), newScore, Some(doc), None, existing).status == Forbidden
    ensures newScore.Some? && 0 <= newScore.value <= 100 && doc.classroomId.Some? ==>
              && OverrideEndpoint(Some(teacherId), newScore, Some(doc), None, existing).Answered?
              && OverrideEndpoint(Some(teacherId), newScore, Some(doc), None, existing).body.1.scores ==
                   Scores(newScore, newScore, newScore, newScore, newScore)
  {
    var s := OverrideEvaluationScore(teacherId, newScore, Some(doc), None, existing);
    if newScore.None? || newScore.value < 0 || newScore.value > 100 {
      assert s == Failure(Throw(IllegalArgument, ScoreOutOfRange));
    } else if doc.classroomId.None? {
      assert s.Failure? && s.error.cls == Security;
    } else {
      assert s.Success?;
    }
  }
}

=== FILE: evaluation_service.dfy ===
/** The evaluation rules of the backend (backend/src/main/java/citu/stde/service/EvaluationService.java):
    the hourly quota, usage statistics, the guard order and failure re-wrapping of an
    evaluation run, the cache copy, the professor's override and the read-authorization rule.
    Time is whole seconds; the repositories, the Drive download, the AI calls and the
    classroom-ownership service are parameters (their answers for this call). */
module EvaluationService {
  import opened Wrappers
  import opened Strings

  type Id = int

  // ---------------------------------------------------------------------------------------
  // Exceptions

  /** The Java exception classes that matter here. `IllegalArgument`, `Security` and
      `NullPointer` are subclasses of `RuntimeException`; `Checked` stands for the I/O
      exceptions the Drive download and text extraction declare. */
  datatype ExceptionClass = IllegalArgument | Security | NullPointer | Runtime | Checked

  datatype JavaException = JavaException(cls: ExceptionClass, message: Option<string>)

  predicate IsRuntime(e: JavaException) {
    e.cls != Checked
  }

  function Throw(cls: ExceptionClass, message: string): JavaException {
    JavaException(cls, Some(message))
  }

  // ---------------------------------------------------------------------------------------
  // Hourly quota

  const HourlyLimit: nat := 30
  const HourSeconds: int := 3600

  /** The two quota columns of a user row; either may be null. */
  datatype QuotaState = QuotaState(windowStart: Option<int>, count: Option<int>)

  /** The window restarts when there is none or when its hour ended strictly before `now`. */
  predicate Lapsed(q: QuotaState, now: int) {
    q.windowStart.None? || q.windowStart.value + HourSeconds < now
  }

  /** The window start and count in force at `now`, after any restart. */
  function WindowAt(q: QuotaState, now: int): (r: (int, int))
    ensures Lapsed(q, now) ==> r == (now, 0)
    ensures !Lapsed(q, now) ==> r == (q.windowStart.value, q.count.GetOr(0))
    ensures now <= r.0 + HourSeconds
  {
    if Lapsed(q, now) then (now, 0) else (q.windowStart.value, q.count.GetOr(0))
  }

  const UserNotFound: string := "User not found"

  /** The marker that opens every classified failure message, "TYPE:<KIND>|<text>". */
  const TypeTag: string := "TYPE:"
  const InvalidDocumentTag: string := TypeTag + "INVALID_DOCUMENT"
  const QuotaTag: string := TypeTag + "QUOTA_EXCEEDED"
  const RateLimitTag: string := TypeTag + "RATE_LIMIT"
  const ServerErrorTag: string := TypeTag + "SERVER_ERROR"

  function QuotaText(minutesLeft: nat): string {
    "You have used all " + NatToString(HourlyLimit) + " analysis attempts " +
    "for this hour. Resets in " + NatToString(minutesLeft) + " minutes."
  }

  function QuotaMessage(minutesLeft: nat): string {
    QuotaTag + "|" + QuotaText(minutesLeft)
  }

  /** `checkAndIncrementUsage`: the new quota columns, or the exception thrown. A refusal
      reports the whole minutes left in the window (`ChronoUnit.MINUTES.between` truncates)
      and leaves the row as it was. */
  function CheckAndIncrementUsage(user: Option<QuotaState>, now: int): (r: Result<QuotaState, JavaException>)
    ensures user.None? ==> r == Failure(Throw(IllegalArgument, UserNotFound))
    ensures r.Success? <==> user.Some? && WindowAt(user.value, now).1 < HourlyLimit
    ensures r.Success? ==>
              r.value == QuotaState(Some(WindowAt(user.value, now).0), Some(WindowAt(user.value, now).1 + 1))
    ensures user.Some? && r.Failure? ==>
              && !Lapsed(user.value, now)
              && r.error == Throw(Runtime, QuotaMessage((user.value.windowStart.value + HourSeconds - now) / 60))
  {
    match user
    case None => Failure(Throw(IllegalArgument, UserNotFound))
    case Some(q) =>
      var (start, count) := WindowAt(q, now);
      if count >= HourlyLimit then
        Failure(Throw(Runtime, QuotaMessage((start + HourSeconds - now) / 60)))
      else Success(QuotaState(Some(start), Some(count + 1)))
  }

  /** A successful check leaves a count in [1, 30], given the stored count was not negative. */
  lemma CheckedCountWithinLimit(q: QuotaState, now: int)
    requires q.count.GetOr(0) >= 0
    requires CheckAndIncrementUsage(Some(q), now).Success?
    ensures 1 <= CheckAndIncrementUsage(Some(q), now).value.count.value <= HourlyLimit
    ensures !Lapsed(CheckAndIncrementUsage(Some(q), now).value, now)
  {
  }

  /** There is no restart at exactly one hour: a full window refuses at start + 3600 with 0
      minutes left, and admits again one second later. */
  lemma WindowBoundary(start: int)
    ensures CheckAndIncrementUsage(Some(QuotaState(Some(start), Some(30))), start + 3600) ==
              Failure(Throw(Runtime, QuotaMessage(0)))
    ensures CheckAndIncrementUsage(Some(QuotaState(Some(start), Some(30))), start + 3601) ==
              Success(QuotaState(Some(start + 3601), Some(1)))
  {
  }

  /** `n` checks in a row at the same instant; None once one is refused. */
  function Checks(q: QuotaState, now: int, n: nat): Option<QuotaState>
    decreases n
  {
    if n == 0 then Some(q)
    else match CheckAndIncrementUsage(Some(q), now)
      case Success(q1) => Checks(q1, now, n - 1)
      case Failure(_) => None
  }

  lemma {:induction false} ChecksWithinWindow(start: int, c: int, now: int, n: nat)
    requires start + HourSeconds >= now && 0 <= c && c + n <= HourlyLimit
    ensures Checks(QuotaState(Some(start), Some(c)), now, n) == Some(QuotaState(Some(start), Some(c + n)))
    decreases n
  {
    if n > 0 {
      ChecksWithinWindow(start, c + 1, now, n - 1);
    }
  }

  /** From a user who never evaluated, exactly 30 checks at one instant succeed and the
      31st is refused. */
  lemma {:induction false} ThirtyPerHour(now: int)
    ensures Checks(QuotaState(None, None), now, 30) == Some(QuotaState(Some(now), Some(30)))
    ensures CheckAndIncrementUsage(Some(QuotaState(Some(now), Some(30))), now).Failure?
  {
    assert CheckAndIncrementUsage(Some(QuotaState(None, None)), now) == Success(QuotaState(Some(now), Some(1)));
    ChecksWithinWindow(now, 1, now, 29);
  }

  datatype UsageStats = UsageStats(used: int, limit: int, remaining: int, resetInSeconds: int)

  /** `getUsageStats`: reads the window as the check would, and writes nothing. */
  function GetUsageStats(user: Option<QuotaState>, now: int): (r: Result<UsageStats, JavaException>)
    ensures user.None? ==> r == Failure(Throw(IllegalArgument, UserNotFound))
    ensures user.Some? ==> r.Success?
    ensures r.Success? ==>
              && r.value.limit == HourlyLimit
              && r.value.remaining == (if HourlyLimit - r.value.used > 0 then HourlyLimit - r.value.used else 0)
              && 0 <= r.value.resetInSeconds
              && (Lapsed(user.value, now) ==> r.value.used == 0 && r.value.resetInSeconds == HourSeconds)
              && (!Lapsed(user.value, now) ==> r.value.used == user.value.count.GetOr(0))
              && (!Lapsed(user.value, now) ==>
                    r.value.resetInSeconds == user.value.windowStart.value + HourSeconds - now)
  {
    match user
    case None => Failure(Throw(IllegalArgument, UserNotFound))
    case Some(q) =>
      var (start, used) := WindowAt(q, now);
      var left := start + HourSeconds - now;
      Success(UsageStats(used, HourlyLimit,
                         if HourlyLimit - used > 0 then HourlyLimit - used else 0,
                         if left > 0 then left else 0))
  }

  /** The statistics predict the check: attempts remain exactly when the next check succeeds. */
  lemma RemainingPredictsCheck(q: QuotaState, now: int)
    ensures GetUsageStats(Some(q), now).value.remaining > 0 <==> CheckAndIncrementUsage(Some(q), now).Success?
  {
  }

  /** After a successful check, the statistics at the same instant report the new count as
      used and one attempt fewer remaining. */
  lemma StatsAfterCheck(q: QuotaState, now: int)
    requires CheckAndIncrementUsage(Some(q), now).Success?
    ensures GetUsageStats(CheckAndIncrementUsage(Some(q), now).ToOption(), now).value.used ==
              WindowAt(q, now).1 + 1
    ensures GetUsageStats(CheckAndIncrementUsage(Some(q), now).ToOption(), now).value.remaining ==
              GetUsageStats(Some(q), now).value.remaining - 1
  {
  }

  // ---------------------------------------------------------------------------------------
  // Evaluation run

  datatype DocumentStatus = Processing | Completed | Failed

  /** A document row as the service reads it. */
  datatype DocumentRecord = DocumentRecord(id: Id, ownerId: Id, classroomId: Option<Id>, filename: string)

  /** The five scores of an evaluation; each may be null. */
  datatype Scores = Scores(completeness: Option<int>, clarity: Option<int>, consistency: Option<int>,
                           verification: Option<int>, overall: Option<int>)

  /** An evaluation row. The four per-dimension feedback texts are copied along unchanged
      wherever an evaluation is copied and are not represented. */
  datatype Evaluation = Evaluation(documentId: Id, userId: Id, scores: Scores, overallFeedback: Option<string>)

  /** The structured answer of the scoring AI. */
  datatype AiResponse = AiResponse(scores: Scores, overallFeedback: Option<string>)

  /** The answers of the collaborators inside the processing block, for one run. */
  datatype ProcessingAnswers = ProcessingAnswers(
    content: Result<string, JavaException>,   // Drive download and text extraction
    cached: Option<Evaluation>,               // latest evaluation by this user of identical content
    isTestingDocument: bool,                  // the classifier's verdict (its own failures count as false)
    ai: Result<AiResponse, JavaException>)    // the scoring call

  /** What a run leaves behind: the quota row, the statuses written to the document in
      order, and the evaluation returned or the exception thrown. */
  datatype EvaluateRun = EvaluateRun(quota: Option<QuotaState>, statuses: seq<DocumentStatus>,
                                     outcome: Result<Evaluation, JavaException>)

  const CacheNote: string := " (Note: Result retrieved from cache as content is identical to previous submission.)"
  /** The failure texts, written as short pieces so that their characters can be reasoned
      about one piece at a time. */
  const InvalidDocumentText: string := "The uploaded document is not a " + "Software Testing Document."
  const InvalidDocumentMessage: string := InvalidDocumentTag + "|" + InvalidDocumentText
  const RateLimitText: string := "AI is busy. " + "Please wait 30 seconds."
  const RateLimitMessage: string := RateLimitTag + "|" + RateLimitText
  const ServerErrorLead: string := "Internal processing failed: "
  const ServerErrorPrefix: string := ServerErrorTag + "|" + ServerErrorLead

  /** Java string concatenation of a possibly null string. */
  function JavaText(s: Option<string>): string {
    match s
    case Some(t) => t
    case None => "null"
  }

  /** `copyCachedEvaluation`: a new row for the current document and user carrying the cached
      scores, with the cache note appended to the overall feedback. */
  function CopyCachedEvaluation(cached: Evaluation, doc: DocumentRecord, userId: Id): (e: Evaluation)
    ensures e.documentId == doc.id && e.userId == userId
    ensures e.scores == cached.scores
    ensures e.overallFeedback.Some? && JavaText(cached.overallFeedback) <= e.overallFeedback.value
    ensures e.overallFeedback.value[|JavaText(cached.overallFeedback)|..] == CacheNote
  {
    var text := JavaText(cached.overallFeedback) + CacheNote;
    assert text[..|JavaText(cached.overallFeedback)|] == JavaText(cached.overallFeedback);
    Evaluation(doc.id, userId, cached.scores, Some(text))
  }

  /** The catch block of `evaluateDocument`. A null message makes `getMessage().toLowerCase()`
      itself throw; that NullPointerException's own text is not represented (the controller
      rethrows it whatever it says). A message mentioning "429" or "rate limit" in any case becomes RATE_LIMIT,
      even when it already carries a tag; another tagged message keeps its text; anything else
      becomes SERVER_ERROR. The result is always a plain `RuntimeException`. */
  function Rewrap(e: JavaException): (r: JavaException)
    ensures e.message.None? <==> r.cls == NullPointer
    ensures e.message.Some? ==> r.cls == Runtime && r.message.Some?
    ensures e.message.Some? && (Contains(ToLower(e.message.value), "429") || Contains(ToLower(e.message.value), "rate limit")) ==>
              r.message.value == RateLimitMessage
    ensures e.message.Some? && !Contains(ToLower(e.message.value), "429") && !Contains(ToLower(e.message.value), "rate limit") ==>
              (StartsWith(e.message.value, TypeTag) ==> r.message == e.message) &&
              (!StartsWith(e.message.value, TypeTag) ==> r.message == Some(ServerErrorPrefix + e.message.value))
  {
    match e.message
    case None => JavaException(NullPointer, None)
    case Some(m) =>
      var lower := ToLower(m);
      if Contains(lower, "429") || Contains(lower, "rate limit") then Throw(Runtime, RateLimitMessage)
      else if StartsWith(m, TypeTag) then Throw(Runtime, m)
      else Throw(Runtime, ServerErrorPrefix + m)
  }

  /** Whatever the processing block threw, the run ends with a tagged message or with the
      null-message failure of the catch block itself. */
  lemma RewrapAlwaysTagged(e: JavaException)
    requires e.message.Some?
    ensures StartsWith(Rewrap(e).message.value, TypeTag)
  {
    var m := e.message.value;
    var lower := ToLower(m);
    if Contains(lower, "429") || Contains(lower, "rate limit") {
      assert RateLimitMessage == TypeTag + ("RATE_LIMIT" + "|" + RateLimitText);
      ConcatStartsWith(TypeTag, "RATE_LIMIT" + "|" + RateLimitText);
    } else if !StartsWith(m, TypeTag) {
      assert ServerErrorPrefix + m == TypeTag + ("SERVER_ERROR" + "|" + ServerErrorLead + m);
      ConcatStartsWith(TypeTag, "SERVER_ERROR" + "|" + ServerErrorLead + m);
    }
  }

  /** The processing block, entered after the document was marked PROCESSING. */
  function Process(doc: DocumentRecord, userId: Id, p: ProcessingAnswers): (r: Result<Evaluation, JavaException>)
    ensures p.content.Failure? ==> r == Failure(p.content.error)
    ensures p.content.Success? && p.cached.Some? ==> r == Success(CopyCachedEvaluation(p.cached.value, doc, userId))
    ensures p.content.Success? && p.cached.None? && !p.isTestingDocument ==>
              r == Failure(Throw(IllegalArgument, InvalidDocumentMessage))
    ensures r.Success? && p.cached.None? ==>
              && p.isTestingDocument && p.ai.Success? && p.ai.value.scores.completeness.Some?
              && r.value == Evaluation(doc.id, userId, p.ai.value.scores, p.ai.value.overallFeedback)
  {
    match p.content
    case Failure(e) => Failure(e)
    case Success(_) =>
      if p.cached.Some? then Success(CopyCachedEvaluation(p.cached.value, doc, userId))
      else if !p.isTestingDocument then Failure(Throw(IllegalArgument, InvalidDocumentMessage))
      else match p.ai
        case Failure(e) => Failure(e)
        case Success(resp) =>
          if resp.scores.completeness.None? then Failure(Throw(Runtime, "AI returned null scores."))
          else Success(Evaluation(doc.id, userId, resp.scores, resp.overallFeedback))
  }

  /** `evaluateDocument`. The lookup, the ownership test and the quota check come first and
      touch neither the document's status nor (on failure) the quota; once past them the
      document is marked PROCESSING, and then COMPLETED or FAILED. */
  function EvaluateDocument(documentId: Id, userId: Id, doc: Option<DocumentRecord>,
                            quota: Option<QuotaState>, now: int, p: ProcessingAnswers): (r: EvaluateRun)
    ensures doc.None? ==> r == EvaluateRun(quota, [], Failure(Throw(IllegalArgument, "Document not found")))
    ensures doc.Some? && doc.value.ownerId != userId ==>
              r == EvaluateRun(quota, [], Failure(Throw(Security, "Unauthorized access to document")))
    ensures doc.Some? && doc.value.ownerId == userId && CheckAndIncrementUsage(quota, now).Failure? ==>
              r == EvaluateRun(quota, [], Failure(CheckAndIncrementUsage(quota, now).error))
    ensures r.statuses != [] <==> doc.Some? && doc.value.ownerId == userId && CheckAndIncrementUsage(quota, now).Success?
    ensures r.statuses != [] ==>
              && r.quota == CheckAndIncrementUsage(quota, now).ToOption()
              && (r.outcome.Success? ==> r.statuses == [Processing, Completed])
              && (r.outcome.Failure? ==> r.statuses == [Processing, Failed])
              && r.outcome == (match Process(doc.value, userId, p)
                               case Success(e) => Success(e)
                               case Failure(e) => Failure(Rewrap(e)))
  {
    match doc
    case None => EvaluateRun(quota, [], Failure(Throw(IllegalArgument, "Document not found")))
    case Some(d) =>
      if d.ownerId != userId then EvaluateRun(quota, [], Failure(Throw(Security, "Unauthorized access to document")))
      else match CheckAndIncrementUsage(quota, now)
        case Failure(e) => EvaluateRun(quota, [], Failure(e))
        case Success(q) =>
          match Process(d, userId, p)
          case Success(e) => EvaluateRun(Some(q), [Processing, Completed], Success(e))
          case Failure(e) => EvaluateRun(Some(q), [Processing, Failed], Failure(Rewrap(e)))
  }

  /** A failure past the guards is always a plain `RuntimeException` (or the catch block's own
      null-message failure): no `IllegalArgumentException` leaves the processing block. */
  lemma ProcessingFailuresAreRewrapped(documentId: Id, userId: Id, doc: Option<DocumentRecord>,
                                       quota: Option<QuotaState>, now: int, p: ProcessingAnswers)
    requires EvaluateDocument(documentId, userId, doc, quota, now, p).statuses != []
    requires EvaluateDocument(documentId, userId, doc, quota, now, p).outcome.Failure?
    ensures EvaluateDocument(documentId, userId, doc, quota, now, p).outcome.error.cls in {Runtime, NullPointer}
  {
  }

  /** The only `IllegalArgumentException`s leaving `evaluateDocument` are the two lookups:
      the missing document and the missing user of the quota check. */
  lemma IllegalArgumentOnlyFromLookups(documentId: Id, userId: Id, doc: Option<DocumentRecord>,
                                       quota: Option<QuotaState>, now: int, p: ProcessingAnswers)
    requires EvaluateDocument(documentId, userId, doc, quota, now, p).outcome.Failure?
    requires EvaluateDocument(documentId, userId, doc, quota, now, p).outcome.error.cls == IllegalArgument
    ensures EvaluateDocument(documentId, userId, doc, quota, now, p).outcome.error in
              {Throw(IllegalArgument, "Document not found"), Throw(IllegalArgument, UserNotFound)}
  {
    if EvaluateDocument(documentId, userId, doc, quota, now, p).statuses != [] {
      ProcessingFailuresAreRewrapped(documentId, userId, doc, quota, now, p);
      assert false;
    }
  }

  /** A cache hit needs neither the classifier nor the AI: their answers do not matter. */
  lemma CacheHitSkipsAi(documentId: Id, userId: Id, doc: Option<DocumentRecord>,
                        quota: Option<QuotaState>, now: int, p: ProcessingAnswers, verdict: bool,
                        ai: Result<AiResponse, JavaException>)
    requires p.content.Success? && p.cached.Some?
    ensures EvaluateDocument(documentId, userId, doc, quota, now, p) ==
              EvaluateDocument(documentId, userId, doc, quota, now, p.(isTestingDocument := verdict, ai := ai))
  {
  }

  /** The catch block as evidently intended: a tagged `IllegalArgumentException` is rethrown
      as it is, so that the invalid-document rejection still reaches the controller as one.
      Everything else is unchanged. */
  function RewrapIntended(e: JavaException): (r: JavaException)
    ensures r.message == Rewrap(e).message
    ensures e.cls != IllegalArgument ==> r == Rewrap(e)
    ensures e.cls == IllegalArgument && r != Rewrap(e) ==> r == e
  {
    match e.message
    case None => JavaException(NullPointer, None)
    case Some(m) =>
      var lower := ToLower(m);
      if Contains(lower, "429") || Contains(lower, "rate limit") then Throw(Runtime, RateLimitMessage)
      else if StartsWith(m, TypeTag) then (if e.cls == IllegalArgument then e else Throw(Runtime, m))
      else Throw(Runtime, ServerErrorPrefix + m)
  }

  /** `evaluateDocument` with the intended catch block: the same guards, writes and messages;
      only the class of a rethrown tagged failure differs. */
  function EvaluateDocumentIntended(documentId: Id, userId: Id, doc: Option<DocumentRecord>,
                                    quota: Option<QuotaState>, now: int, p: ProcessingAnswers): (r: EvaluateRun)
    ensures var w := EvaluateDocument(documentId, userId, doc, quota, now, p);
            && r.quota == w.quota && r.statuses == w.statuses
            && r.outcome.Success? == w.outcome.Success?
            && (r.outcome.Success? ==> r.outcome == w.outcome)
            && (r.outcome.Failure? ==> r.outcome.error.message == w.outcome.error.message)
            && (w.statuses == [] ==> r == w)
  {
    match doc
    case None => EvaluateRun(quota, [], Failure(Throw(IllegalArgument, "Document not found")))
    case Some(d) =>
      if d.ownerId != userId then EvaluateRun(quota, [], Failure(Throw(Security, "Unauthorized access to document")))
      else match CheckAndIncrementUsage(quota, now)
        case Failure(e) => EvaluateRun(quota, [], Failure(e))
        case Success(q) =>
          match Process(d, userId, p)
          case Success(e) => EvaluateRun(Some(q), [Processing, Completed], Success(e))
          case Failure(e) => EvaluateRun(Some(q), [Processing, Failed], Failure(RewrapIntended(e)))
  }

  // ---------------------------------------------------------------------------------------
  // Override and read

  const ScoreOutOfRange: string := "Score must be between 0 and 100."
  const OverrideFeedback: string := "Score manually overridden by Professor."

  datatype OverrideRun = OverrideRun(evaluation: Evaluation, status: DocumentStatus)

  /** `overrideEvaluationScore`. `ownership` is what `verifyClassroomOwnership` does for this
      teacher and classroom: None when it returns, or the exception it throws; `existing` is
      the document's current evaluation, if any. */
  function OverrideEvaluationScore(teacherId: Id, newScore: Option<int>, doc: Option<DocumentRecord>,
                                   ownership: Option<JavaException>, existing: Option<Evaluation>): (r: Result<OverrideRun, JavaException>)
    ensures (newScore.None? || newScore.value < 0 || newScore.value > 100) ==>
              r == Failure(Throw(IllegalArgument, ScoreOutOfRange))
    ensures r.Success? <==>
              newScore.Some? && 0 <= newScore.value <= 100 && doc.Some? && doc.value.classroomId.Some? && ownership.None?
    ensures r.Success? ==>
              && r.value.status == Completed
              && r.value.evaluation.scores == Scores(newScore, newScore, newScore, newScore, newScore)
              && r.value.evaluation.overallFeedback == Some(OverrideFeedback)
              && r.value.evaluation.documentId == (if existing.Some? then existing.value.documentId else doc.value.id)
              && r.value.evaluation.userId == (if existing.Some? then existing.value.userId else doc.value.ownerId)
    ensures newScore.Some? && 0 <= newScore.value <= 100 && doc.Some? && doc.value.classroomId.None? ==>
              r.Failure? && r.error.cls == Security
  {
    if newScore.None? || newScore.value < 0 || newScore.value > 100 then Failure(Throw(IllegalArgument, ScoreOutOfRange))
    else match doc
      case None => Failure(Throw(IllegalArgument, "Document not found."))
      case Some(d) =>
        if d.classroomId.None? then
          Failure(Throw(Security, "Security check failed: Document is not linked to any class."))
        else if ownership.Some? then Failure(ownership.value)
        else
          var base := if existing.Some? then existing.value
                      else Evaluation(d.id, d.ownerId, Scores(None, None, None, None, None), None);
          var s := newScore;
          Success(OverrideRun(base.(scores := Scores(s, s, s, s, s), overallFeedback := Some(OverrideFeedback)), Completed))
  }

  /** `getEvaluationByDocumentId`. `ownership` is what `verifyClassroomOwnership` does for the
      requester and the document's classroom; only a `SecurityException` from it is absorbed. */
  function GetEvaluationByDocumentId(userId: Id, found: Option<(Evaluation, DocumentRecord)>,
                                     ownership: Option<JavaException>): (r: Result<Evaluation, JavaException>)
    ensures found.None? ==> r == Failure(Throw(IllegalArgument, "Evaluation report not found."))
    ensures r.Success? ==> found.Some? && r.value == found.value.0
  {
    match found
    case None => Failure(Throw(IllegalArgument, "Evaluation report not found."))
    case Some((eval, doc)) =>
      var isOwner := doc.ownerId == userId;
      if doc.classroomId.Some? && ownership.Some? && ownership.value.cls != Security then Failure(ownership.value)
      else
        var isTeacherOfClass := doc.classroomId.Some? && ownership.None?;
        if !isOwner && !isTeacherOfClass then Failure(Throw(Security, "Unauthorized"))
        else Success(eval)
  }

  /** The read rule: the report is returned exactly when the requester owns the document or
      is the verified teacher of its classroom, unless the ownership service failed with
      something other than a `SecurityException`, which escapes even for the owner. */
  lemma ReadAuthorization(userId: Id, eval: Evaluation, doc: DocumentRecord, ownership: Option<JavaException>)
    ensures GetEvaluationByDocumentId(userId, Some((eval, doc)), ownership).Success? <==>
              && !(doc.classroomId.Some? && ownership.Some? && ownership.value.cls != Security)
              && (doc.ownerId == userId || (doc.classroomId.Some? && ownership.None?))
    ensures doc.classroomId.None? ==>
              (GetEvaluationByDocumentId(userId, Some((eval, doc)), ownership).Success? <==> doc.ownerId == userId)
  {
  }
}

=== FILE: login_pages.dfy ===
/** The submit handlers of the three login pages (frontend/stde-app/src/pages/StudentLogin.jsx,
    TeacherLogin.jsx and Login.jsx). Each first calls `authService.login` (which may already
    have written the session), then gates on the user's role. The pages differ in where the
    user record comes from, whether a role mismatch logs out, and how the token is written. */
module LoginPages {
  import opened Wrappers
  import opened Roles
  import opened UserJson
  import opened AuthService

  const InvalidCredentials: string := "Invalid email or password. Please try again."
  const StudentOnlyDenied: string := "Access denied. This login is for students only. Please use the teacher login page."
  const TeacherOnly: string := "This login is only for teachers. Please use the student login page."
  const LegacyStudentOnly: string := "This login is for students only. Please use the correct login page."

  const StudentDashboardPath: string := "/student/dashboard"
  const TeacherClassroomPath: string := "/teacher/classroom"
  const LegacyStudentHomePath: string := "/ai-evaluate"

  /** What the page holds once the handler has finished. */
  datatype LoginView = LoginView(storage: Storage, error: string, loading: bool, navigateTo: Option<string>)

  /** StudentLogin's first error message: the `error` query parameter, or empty. */
  function InitialError(query: Option<string>): (r: string)
    ensures query.Some? && query.value != "" ==> r == query.value
    ensures !(query.Some? && query.value != "") ==> r == ""
  {
    OrElse(query, "")
  }

  /** `response.user ? response.user : response`. */
  function UserOrSelf(resp: LoginResponse): User {
    if resp.user.Some? then resp.user.value else resp.asUser
  }

  /** Writes the user, then the token only when it is truthy. */
  function StoreStudent(st: Storage, user: User, token: Option<string>): Storage {
    var s := st[UserKey := Encode(user)];
    if Truthy(token) then s[TokenKey := token.value] else s
  }

  /** StudentLogin `handleSubmit`. */
  function StudentLoginSubmit(st: Storage, reply: Reply<LoginResponse>): (v: LoginView)
    ensures !v.loading
    ensures reply.Fail? ==> v == LoginView(st, InvalidCredentials, false, None)
    ensures reply.Ok? && UserOrSelf(reply.value).userType != Some(Student) ==>
              && v.error == StudentOnlyDenied && v.navigateTo == None
              && !IsAuthenticated(v.storage) && GetCurrentUser(v.storage) == Returned(None)
    ensures v.navigateTo.Some? <==> reply.Ok? && UserOrSelf(reply.value).userType == Some(Student)
    ensures v.navigateTo.Some? ==>
              && v.navigateTo.value == StudentDashboardPath && v.error == ""
              && GetCurrentUser(v.storage) == Returned(Some(UserOrSelf(reply.value)))
              && (Truthy(reply.value.token) ==>
                    TokenKey in v.storage && v.storage[TokenKey] == reply.value.token.value)
              && (!Truthy(reply.value.token) ==>
                    (TokenKey in v.storage <==> TokenKey in st) &&
                    (TokenKey in st ==> v.storage[TokenKey] == st[TokenKey]))
  {
    var step := Login(st, reply);
    match step.outcome
    case Failure(_) => LoginView(step.storage, InvalidCredentials, false, None)
    case Success(resp) =>
      var user := UserOrSelf(resp);
      if user.userType != Some(Student) then
        LogoutClears(step.storage);
        LoginView(Logout(step.storage), StudentOnlyDenied, false, None)
      else
        var s := StoreStudent(step.storage, user, resp.token);
        DecodeEncode(user);
        EncodeNotSentinel(user);
        LoginView(s, "", false, Some(StudentDashboardPath))
  }

  /** `localStorage.setItem('token', response.token)` with no check: an undefined token is
      stored as the text "undefined". */
  function TokenText(token: Option<string>): string {
    match token
    case Some(t) => t
    case None => "undefined"
  }

  /** TeacherLogin `handleSubmit`. The user is `response.user` with no fallback; reading
      `userType` of an absent user throws and lands in the catch. A mismatch neither logs out
      nor navigates, so whatever `authService.login` wrote stays. */
  function TeacherLoginSubmit(st: Storage, reply: Reply<LoginResponse>): (v: LoginView)
    ensures !v.loading
    ensures reply.Fail? ==> v == LoginView(st, InvalidCredentials, false, None)
    ensures reply.Ok? && reply.value.user.None? ==>
              v == LoginView(Login(st, reply).storage, InvalidCredentials, false, None)
    ensures reply.Ok? && reply.value.user.Some? && reply.value.user.value.userType != Some(Teacher) ==>
              v == LoginView(Login(st, reply).storage, TeacherOnly, false, None)
    ensures v.navigateTo.Some? <==> reply.Ok? && reply.value.user.Some? && reply.value.user.value.userType == Some(Teacher)
    ensures v.navigateTo.Some? ==>
              && v.navigateTo.value == TeacherClassroomPath && v.error == ""
              && TokenKey in v.storage && v.storage[TokenKey] == TokenText(reply.value.token)
              && GetCurrentUser(v.storage) == Returned(reply.value.user)
  {
    var step := Login(st, reply);
    match step.outcome
    case Failure(_) => LoginView(step.storage, InvalidCredentials, false, None)
    case Success(resp) =>
      match resp.user
      case None => LoginView(step.storage, InvalidCredentials, false, None)
      case Some(user) =>
        if user.userType != Some(Teacher) then LoginView(step.storage, TeacherOnly, false, None)
        else
          DecodeEncode(user);
          EncodeNotSentinel(user);
          LoginView(step.storage[UserKey := Encode(user)][TokenKey := TokenText(resp.token)], "", false, Some(TeacherClassroomPath))
  }

  /** Login (the older student page) `handleSubmit`: falls back to the answer itself, does not
      log out on a mismatch, and sends students to the evaluation page. */
  function LegacyLoginSubmit(st: Storage, reply: Reply<LoginResponse>): (v: LoginView)
    ensures !v.loading
    ensures reply.Fail? ==> v == LoginView(st, InvalidCredentials, false, None)
    ensures reply.Ok? && UserOrSelf(reply.value).userType != Some(Student) ==>
              v == LoginView(Login(st, reply).storage, LegacyStudentOnly, false, None)
    ensures v.navigateTo.Some? <==> reply.Ok? && UserOrSelf(reply.value).userType == Some(Student)
    ensures v.navigateTo.Some? ==>
              && v.navigateTo.value == LegacyStudentHomePath && v.error == ""
              && GetCurrentUser(v.storage) == Returned(Some(UserOrSelf(reply.value)))
              && (Truthy(reply.value.token) ==>
                    TokenKey in v.storage && v.storage[TokenKey] == reply.value.token.value)
              && (!Truthy(reply.value.token) ==>
                    (TokenKey in v.storage <==> TokenKey in st) &&
                    (TokenKey in st ==> v.storage[TokenKey] == st[TokenKey]))
  {
    var step := Login(st, reply);
    match step.outcome
    case Failure(_) => LoginView(step.storage, InvalidCredentials, false, None)
    case Success(resp) =>
      var user := UserOrSelf(resp);
      if user.userType != Some(Student) then LoginView(step.storage, LegacyStudentOnly, false, None)
      else
        DecodeEncode(user);
        EncodeNotSentinel(user);
        LoginView(StoreStudent(step.storage, user, resp.token), "", false, Some(LegacyStudentHomePath))
  }

  /** The pages disagree on a role mismatch: for the same token-bearing answer carrying a
      TEACHER, the student page leaves nobody signed in, while the older student page keeps
      the session `authService.login` wrote. */
  lemma MismatchLogoutDiffers(st: Storage, resp: LoginResponse)
    requires Truthy(resp.token) && resp.user.Some? && resp.user.value.userType == Some(Teacher)
    ensures !IsAuthenticated(StudentLoginSubmit(st, Ok(resp)).storage)
    ensures IsAuthenticated(LegacyLoginSubmit(st, Ok(resp)).storage)
    ensures GetCurrentUser(LegacyLoginSubmit(st, Ok(resp)).storage) == Returned(resp.user)
  {
    LoginThenCurrentUser(st, resp);
  }

  /** A STUDENT signing in on the teacher page stays signed in: the page reports the mismatch
      but the session written by `authService.login` remains. */
  lemma TeacherPageKeepsStudentSession(st: Storage, resp: LoginResponse)
    requires Truthy(resp.token) && resp.user.Some? && resp.user.value.userType == Some(Student)
    ensures TeacherLoginSubmit(st, Ok(resp)).error == TeacherOnly
    ensures IsAuthenticated(TeacherLoginSubmit(st, Ok(resp)).storage)
    ensures GetCurrentUser(TeacherLoginSubmit(st, Ok(resp)).storage) == Returned(resp.user)
  {
    LoginThenCurrentUser(st, resp);
  }

  /** A TEACHER answer without a token still leaves the teacher page signed in: the token key
      then holds the text "undefined", which is truthy. */
  lemma TeacherWithoutTokenLooksAuthenticated(st: Storage, resp: LoginResponse)
    requires resp.token.None? && resp.user.Some? && resp.user.value.userType == Some(Teacher)
    ensures TeacherLoginSubmit(st, Ok(resp)).navigateTo == Some(TeacherClassroomPath)
    ensures IsAuthenticated(TeacherLoginSubmit(st, Ok(resp)).storage)
    ensures TeacherLoginSubmit(st, Ok(resp)).storage[TokenKey] == "undefined"
  {
  }

  /** A student answer without a token signs the student page in only if a token was already
      stored: the page writes the user but never a missing token. */
  lemma StudentWithoutTokenKeepsOldToken(st: Storage, resp: LoginResponse)
    requires !Truthy(resp.token) && UserOrSelf(resp).userType == Some(Student)
    ensures IsAuthenticated(StudentLoginSubmit(st, Ok(resp)).storage) == IsAuthenticated(st)
  {
  }
}

=== FILE: oauth_success.dfy ===
/** The decision the backend takes once Google has authenticated a user
    (backend/src/main/java/citu/stde/security/OAuth2LoginSuccessHandler.java): which login page
    and mode the browser's cookies name, whether a link request is refused, whether an
    existing account is turned away for signing in on the wrong page, which account is
    created or updated, and what the callback redirect carries. The two repository lookups and
    the id the repository assigns to a new account are inputs. */
module OAuthSuccess {
  import opened Wrappers
  import opened Roles

  const LoginTypeCookie: string := "oauthLoginType"
  const ModeCookie: string := "oauthMode"
  const DefaultLoginPage: string := "student"
  const DefaultMode: string := "login"
  const LinkMode: string := "link"

  const AlreadyLinkedMessage: string := "This Google account is already connected to another account."
  const TeacherAccountMessage: string := "This account is registered as a teacher. Please use the teacher login page."
  const StudentAccountMessage: string := "This account is registered as a student. Please use the student login page."

  datatype Cookie = Cookie(name: string, value: string)

  /** The attributes read from Google's user info; any of them may be absent. */
  datatype GoogleProfile = GoogleProfile(email: Option<string>, givenName: Option<string>, familyName: Option<string>,
                                         picture: Option<string>, sub: Option<string>)

  /** A persisted user, as far as this handler reads and writes it. */
  datatype Account = Account(id: int, email: Option<string>, firstname: Option<string>, lastname: Option<string>,
                             password: string, googleId: Option<string>, role: Role)

  /** What `generateToken` is given: email, the id's text and the role's name. */
  datatype TokenClaims = TokenClaims(subject: Option<string>, userId: int, role: string)

  /** The query of the success redirect to `/auth/callback` (values before URL encoding). */
  datatype Callback = Callback(token: TokenClaims, userId: int, userType: string, firstname: string,
                               lastname: string, email: string, avatarUrl: string)

  /** The four ways the handler ends. `callback` is None when building the redirect throws:
      `URLEncoder.encode` rejects an absent first name, last name or email, and by then the
      account has already been saved. */
  datatype Outcome =
    | LinkBlocked
    | RoleMismatchRedirect(page: string, message: string)
    | CreateUser(account: Account, callback: Option<Callback>)
    | LoginExisting(account: Account, googleIdUpdated: bool, callback: Option<Callback>)

  /** The handler's answer: the cookies it expires (in the order met) and the outcome. */
  datatype Decision = Decision(cleared: seq<Cookie>, loginPage: string, mode: string, outcome: Outcome)

  // ---------------------------------------------------------------------------------------
  // Reading the cookies

  /** The value the scan leaves for `name`: the last cookie of that name wins, the default
      stands when there is none. */
  function LastValue(cookies: seq<Cookie>, name: string, default: string): (r: string)
    ensures (forall i :: 0 <= i < |cookies| ==> cookies[i].name != name) ==> r == default
    ensures (exists i :: 0 <= i < |cookies| && cookies[i].name == name) ==>
              exists i :: 0 <= i < |cookies| && cookies[i].name == name && r == cookies[i].value &&
                          forall j :: i < j < |cookies| ==> cookies[j].name != name
    decreases |cookies|
  {
    if |cookies| == 0 then default
    else if cookies[|cookies| - 1].name == name then cookies[|cookies| - 1].value
    else
      var r := LastValue(cookies[..|cookies| - 1], name, default);
      assert forall i :: 0 <= i < |cookies| - 1 ==> cookies[..|cookies| - 1][i] == cookies[i];
      r
  }

  predicate Handled(c: Cookie) {
    c.name == LoginTypeCookie || c.name == ModeCookie
  }

  /** The cookies the scan expires: every one of the two handled names, in order. */
  function Expired(cookies: seq<Cookie>): (r: seq<Cookie>)
    ensures |r| <= |cookies|
    ensures forall c :: c in r <==> c in cookies && Handled(c)
    decreases |cookies|
  {
    if |cookies| == 0 then []
    else
      var rest := Expired(cookies[..|cookies| - 1]);
      var last := cookies[|cookies| - 1];
      assert cookies == cookies[..|cookies| - 1] + [last];
      if Handled(last) then rest + [last] else rest
  }

  /** The cookie loop, as the handler writes it: a forward scan that overwrites the page and
      the mode on each match and expires the matching cookie. An absent cookie array leaves
      both defaults. */
  method ScanCookies(cookies: Option<seq<Cookie>>) returns (loginPage: string, mode: string, cleared: seq<Cookie>)
    ensures cookies.None? ==> loginPage == DefaultLoginPage && mode == DefaultMode && cleared == []
    ensures cookies.Some? ==>
              && loginPage == LastValue(cookies.value, LoginTypeCookie, DefaultLoginPage)
              && mode == LastValue(cookies.value, ModeCookie, DefaultMode)
              && cleared == Expired(cookies.value)
  {
    loginPage, mode, cleared := DefaultLoginPage, DefaultMode, [];
    if cookies.None? {
      return;
    }
    var cs := cookies.value;
    var i := 0;
    while i < |cs|
      invariant 0 <= i <= |cs|
      invariant loginPage == LastValue(cs[..i], LoginTypeCookie, DefaultLoginPage)
      invariant mode == LastValue(cs[..i], ModeCookie, DefaultMode)
      invariant cleared == Expired(cs[..i])
    {
      assert cs[..i + 1][..i] == cs[..i];
      if cs[i].name == LoginTypeCookie {
        loginPage := cs[i].value;
        cleared := cleared + [cs[i]];
      } else if cs[i].name == ModeCookie {
        mode := cs[i].value;
        cleared := cleared + [cs[i]];
      }
      i := i + 1;
    }
    assert cs[..i] == cs;
  }

  /** The cookie values as a function: what `ScanCookies` computes. */
  function CookieSettings(cookies: Option<seq<Cookie>>): (r: (string, string))
    ensures cookies.None? ==> r == (DefaultLoginPage, DefaultMode)
  {
    match cookies
    case None => (DefaultLoginPage, DefaultMode)
    case Some(cs) => (LastValue(cs, LoginTypeCookie, DefaultLoginPage), LastValue(cs, ModeCookie, DefaultMode))
  }

  // ---------------------------------------------------------------------------------------
  // The decision

  /** The redirect to the callback page, or None when URL-encoding an absent name or email
      throws. An absent picture is sent as the empty text. */
  function CallbackFor(a: Account, picture: Option<string>): (r: Option<Callback>)
    ensures r.Some? <==> a.firstname.Some? && a.lastname.Some? && a.email.Some?
    ensures r.Some? ==>
              && r.value.token == TokenClaims(a.email, a.id, Name(a.role))
              && r.value.userId == a.id && r.value.userType == Name(a.role)
              && r.value.firstname == a.firstname.value && r.value.lastname == a.lastname.value
              && r.value.email == a.email.value && r.value.avatarUrl == picture.GetOr("")
  {
    if a.firstname.Some? && a.lastname.Some? && a.email.Some? then
      Some(Callback(TokenClaims(a.email, a.id, Name(a.role)), a.id, Name(a.role),
                    a.firstname.value, a.lastname.value, a.email.value, picture.GetOr("")))
    else None
  }

  /** The role check for an existing account signing in through a page (not in link mode). */
  function RoleCheck(page: string, role: Role): (r: Option<(string, string)>)
    ensures r.Some? <==> (page == "student" && role != Student) || (page == "teacher" && role != Teacher)
    ensures r.Some? ==> r.value.0 == page
  {
    if page == "student" && role != Student then Some(("student", TeacherAccountMessage))
    else if page == "teacher" && role != Teacher then Some(("teacher", StudentAccountMessage))
    else None
  }

  /** The account the handler creates for an unknown email. */
  function NewAccount(g: GoogleProfile, page: string, newId: int): Account {
    Account(newId, g.email, g.givenName, g.familyName, "", g.sub, if page == "teacher" then Teacher else Student)
  }

  /** `onAuthenticationSuccess` after the cookies are read. `linked` is what `findByGoogleId`
      answers for the Google id (consulted only in link mode), `existing` what `findByEmail`
      answers for the email, `newId` the id the repository assigns when saving a new account. */
  function Decide(loginPage: string, mode: string, g: GoogleProfile, linked: Option<Account>,
                  existing: Option<Account>, newId: int): (r: Outcome)
    ensures mode == LinkMode && linked.Some? ==> r == LinkBlocked
    ensures r.RoleMismatchRedirect? ==> mode != LinkMode && existing.Some?
    ensures r.CreateUser? <==> existing.None? && !(mode == LinkMode && linked.Some?)
    ensures r.LoginExisting? ==> existing.Some? && r.account.id == existing.value.id && r.account.role == existing.value.role
  {
    if mode == LinkMode && linked.Some? then LinkBlocked
    else match existing
      case Some(user) =>
        var check := if mode != LinkMode then RoleCheck(loginPage, user.role) else None;
        if check.Some? then RoleMismatchRedirect(check.value.0, check.value.1)
        else
          var update := user.googleId.None? && g.sub.Some?;
          var saved := if update then user.(googleId := g.sub) else user;
          LoginExisting(saved, update, CallbackFor(saved, g.picture))
      case None =>
        var account := NewAccount(g, loginPage, newId);
        CreateUser(account, CallbackFor(account, g.picture))
  }

  /** The whole handler: read the cookies, then decide. Without a cookie header the page is
      the student page and the mode is plain login, so link mode can only come from a cookie
      and an existing non-student is sent back to the student page. */
  function OnAuthenticationSuccess(cookies: Option<seq<Cookie>>, g: GoogleProfile, linked: Option<Account>,
                                   existing: Option<Account>, newId: int): (d: Decision)
    ensures (d.loginPage, d.mode) == CookieSettings(cookies)
    ensures d.cleared == (if cookies.Some? then Expired(cookies.value) else [])
    ensures d.outcome == Decide(d.loginPage, d.mode, g, linked, existing, newId)
    ensures d.outcome.LinkBlocked? <==>
              cookies.Some? && LastValue(cookies.value, ModeCookie, DefaultMode) == LinkMode && linked.Some?
    ensures cookies.None? && existing.Some? && existing.value.role != Student ==>
              d.outcome == RoleMismatchRedirect("student", TeacherAccountMessage)
    ensures cookies.None? && existing.None? ==>
              d.outcome.CreateUser? && d.outcome.account.role == Student && d.outcome.account.id == newId
    ensures d.outcome.CreateUser? ==>
              && d.outcome.account.email == g.email && d.outcome.account.googleId == g.sub
              && d.outcome.account.role == (if d.loginPage == "teacher" then Teacher else Student)
  {
    var (page, mode) := CookieSettings(cookies);
    Decision(if cookies.Some? then Expired(cookies.value) else [], page, mode, Decide(page, mode, g, linked, existing, newId))
  }

  /** Where a refusal sends the browser, with the message it carries in `error`. */
  function ErrorRedirect(r: Outcome): (e: Option<(string, string)>)
    ensures e.Some? <==> r.LinkBlocked? || r.RoleMismatchRedirect?
    ensures r.LinkBlocked? ==> e == Some(("/auth/callback", AlreadyLinkedMessage))
    ensures r.RoleMismatchRedirect? ==> e == Some(("/login/" + r.page, r.message))
  {
    match r
    case LinkBlocked => Some(("/auth/callback", AlreadyLinkedMessage))
    case RoleMismatchRedirect(page, message) => Some(("/login/" + page, message))
    case _ => None
  }

  /** The account the handler writes to the repository, if any. */
  function Saved(r: Outcome): Option<Account> {
    match r
    case LinkBlocked => None
    case RoleMismatchRedirect(_, _) => None
    case CreateUser(a, _) => Some(a)
    case LoginExisting(a, updated, _) => if updated then Some(a) else None
  }

  // ---------------------------------------------------------------------------------------
  // Properties

  /** Without cookies of the two handled names, the page is "student", the mode "login" and
      nothing is expired. */
  lemma CookieDefaults(cookies: seq<Cookie>)
    requires forall i :: 0 <= i < |cookies| ==> !Handled(cookies[i])
    ensures CookieSettings(Some(cookies)) == (DefaultLoginPage, DefaultMode)
    ensures Expired(cookies) == []
  {
    NoneExpired(cookies);
  }

  lemma {:induction false} NoneExpired(cookies: seq<Cookie>)
    requires forall i :: 0 <= i < |cookies| ==> !Handled(cookies[i])
    ensures Expired(cookies) == []
    decreases |cookies|
  {
    if |cookies| > 0 {
      var init := cookies[..|cookies| - 1];
      assert forall i :: 0 <= i < |init| ==> init[i] == cookies[i];
      NoneExpired(init);
    }
  }

  /** A later cookie of the login-type name decides the page whatever came before, and leaves
      the mode alone. */
  lemma LaterLoginTypeWins(cookies: seq<Cookie>, value: string)
    ensures CookieSettings(Some(cookies + [Cookie(LoginTypeCookie, value)])).0 == value
    ensures CookieSettings(Some(cookies + [Cookie(LoginTypeCookie, value)])).1 == CookieSettings(Some(cookies)).1
  {
    var cs := cookies + [Cookie(LoginTypeCookie, value)];
    assert cs[..|cs| - 1] == cookies;
    assert LoginTypeCookie[5] != ModeCookie[5];
  }

  /** In link mode a Google id already linked to an account is refused, and then nothing is
      saved; only a linked id is refused, and only in link mode. */
  lemma LinkBlockedExactly(loginPage: string, mode: string, g: GoogleProfile, linked: Option<Account>,
                           existing: Option<Account>, newId: int)
    ensures Decide(loginPage, mode, g, linked, existing, newId).LinkBlocked? <==> mode == LinkMode && linked.Some?
    ensures Decide(loginPage, mode, g, linked, existing, newId).LinkBlocked? ==>
              Saved(Decide(loginPage, mode, g, linked, existing, newId)).None?
  {
  }

  /** A refusal redirects exactly when no account is signed in: the linked-id block goes to the
      callback page, a role mismatch back to the page used with the other role's message, and
      neither saves anything. */
  lemma RefusalRedirects(loginPage: string, mode: string, g: GoogleProfile, linked: Option<Account>,
                         existing: Option<Account>, newId: int)
    ensures var r := Decide(loginPage, mode, g, linked, existing, newId);
            && (ErrorRedirect(r).None? <==> r.CreateUser? || r.LoginExisting?)
            && (ErrorRedirect(r).Some? ==> Saved(r).None?)
            && (mode == LinkMode && linked.Some? ==> ErrorRedirect(r) == Some(("/auth/callback", AlreadyLinkedMessage)))
            && (mode != LinkMode && loginPage == "student" && existing.Some? && existing.value.role != Student ==>
                  ErrorRedirect(r) == Some(("/login/student", TeacherAccountMessage)))
            && (mode != LinkMode && loginPage == "teacher" && existing.Some? && existing.value.role != Teacher ==>
                  ErrorRedirect(r) == Some(("/login/teacher", StudentAccountMessage)))
  {
    assert "/login/" + "student" == "/login/student";
    assert "/login/" + "teacher" == "/login/teacher";
  }

  /** Outside link mode an existing account is turned away exactly when the page names the
      other role: "student" for a non-student, "teacher" for a non-teacher; any other page
      value passes. In link mode nobody is turned away. */
  lemma RoleGate(loginPage: string, mode: string, g: GoogleProfile, linked: Option<Account>,
                 user: Account, newId: int)
    ensures var r := Decide(loginPage, mode, g, linked, Some(user), newId);
            mode != LinkMode ==>
              && (r.RoleMismatchRedirect? <==>
                    (loginPage == "student" && user.role != Student) || (loginPage == "teacher" && user.role != Teacher))
              && (r.RoleMismatchRedirect? ==> r.page == loginPage)
              && (r.RoleMismatchRedirect? && loginPage == "student" ==> r.message == TeacherAccountMessage)
              && (r.RoleMismatchRedirect? && loginPage == "teacher" ==> r.message == StudentAccountMessage)
    ensures mode == LinkMode ==> !Decide(loginPage, mode, g, linked, Some(user), newId).RoleMismatchRedirect?
  {
  }

  /** Outside link mode, whoever gets signed in through the student page is a student and
      whoever gets signed in through the teacher page is a teacher, existing or new. */
  lemma PageMatchesRole(loginPage: string, mode: string, g: GoogleProfile, linked: Option<Account>,
                        existing: Option<Account>, newId: int)
    requires mode != LinkMode
    ensures var r := Decide(loginPage, mode, g, linked, existing, newId);
            (r.CreateUser? || r.LoginExisting?) ==>
              && (loginPage == "student" ==> r.account.role == Student)
              && (loginPage == "teacher" ==> r.account.role == Teacher)
  {
  }

  /** An account's Google id is filled in only when it had none and Google sent one; one that
      is set is never overwritten. Nothing else about the account changes. */
  lemma GoogleIdNeverOverwritten(loginPage: string, mode: string, g: GoogleProfile, linked: Option<Account>,
                                 user: Account, newId: int)
    requires Decide(loginPage, mode, g, linked, Some(user), newId).LoginExisting?
    ensures var r := Decide(loginPage, mode, g, linked, Some(user), newId);
            && (r.googleIdUpdated <==> user.googleId.None? && g.sub.Some?)
            && (user.googleId.Some? ==> r.account.googleId == user.googleId)
            && r.account == user.(googleId := if user.googleId.Some? then user.googleId else g.sub)
  {
  }

  /** A new account is a TEACHER exactly when the page is "teacher", has an empty password,
      and keeps Google's id, email and names. */
  lemma NewUserRole(loginPage: string, mode: string, g: GoogleProfile, linked: Option<Account>, newId: int)
    requires !(mode == LinkMode && linked.Some?)
    ensures var r := Decide(loginPage, mode, g, linked, None, newId);
            && r.CreateUser?
            && (r.account.role == Teacher <==> loginPage == "teacher")
            && (r.account.role != Teacher ==> r.account.role == Student)
            && r.account.password == "" && r.account.googleId == g.sub && r.account.id == newId
            && r.account.email == g.email && r.account.firstname == g.givenName && r.account.lastname == g.familyName
            && Saved(r) == Some(r.account)
  {
  }

  /** The success redirect names the saved account: its id and role in the query and in the
      token's claims alike. */
  lemma CallbackNamesAccount(loginPage: string, mode: string, g: GoogleProfile, linked: Option<Account>,
                             existing: Option<Account>, newId: int)
    ensures var r := Decide(loginPage, mode, g, linked, existing, newId);
            (r.CreateUser? || r.LoginExisting?) && r.callback.Some? ==>
              && r.callback.value.userType == Name(r.account.role)
              && r.callback.value.token.role == Name(r.account.role)
              && r.callback.value.userId == r.account.id && r.callback.value.token.userId == r.account.id
              && FromName(r.callback.value.userType) == Some(r.account.role)
  {
  }

  /** A Google profile without a first name still creates the account, but the redirect then
      throws: the new account exists and the browser receives no callback. */
  lemma MissingNameSavesWithoutCallback(loginPage: string, mode: string, g: GoogleProfile, newId: int)
    requires mode != LinkMode && g.givenName.None?
    ensures Decide(loginPage, mode, g, None, None, newId).CreateUser?
    ensures Decide(loginPage, mode, g, None, None, newId).callback.None?
    ensures Saved(Decide(loginPage, mode, g, None, None, newId)).Some?
  {
  }
}

=== FILE: protected_route.dfy ===
/** The navigation guard (frontend/stde-app/src/components/ProtectedRoute.jsx): a pure decision
    from the session storage and the route's optional role list. It only reads storage. */
module ProtectedRoute {
  import opened Wrappers
  import opened Roles
  import opened UserJson
  import opened AuthService

  const StudentLoginPath: string := "/login/student"
  const StudentHomePath: string := "/ai-evaluate"
  const TeacherHomePath: string := "/teacher/classroom"

  /** `RenderThrows`: reading the stored user threw, so rendering the route throws. */
  datatype GuardResult = Allow | Redirect(path: string) | RenderThrows

  /** `allowedRoles.includes(user.userType)`: an absent role is in no list. */
  predicate RoleListed(t: Option<Role>, roles: seq<Role>) {
    t.Some? && t.value in roles
  }

  /** Both lookups run before any test, so a stored user that does not parse throws even when
      no token is stored. In JavaScript an empty array is truthy: `Some([])` denies everybody,
      while an absent list admits every signed-in user. */
  function Guard(st: Storage, allowedRoles: Option<seq<Role>>): (r: GuardResult)
    ensures r == RenderThrows <==> GetCurrentUser(st).Threw?
    ensures r == Allow <==>
              && IsAuthenticated(st)
              && GetCurrentUser(st).Returned? && GetCurrentUser(st).value.Some?
              && (allowedRoles.None? || RoleListed(GetCurrentUser(st).value.value.userType, allowedRoles.value))
    ensures (!IsAuthenticated(st) || GetCurrentUser(st) == Returned(None)) && !GetCurrentUser(st).Threw? ==>
              r == Redirect(StudentLoginPath)
    ensures r.Redirect? ==> r.path in {StudentLoginPath, StudentHomePath, TeacherHomePath}
  {
    var authenticated := IsAuthenticated(st);
    match GetCurrentUser(st)
    case Threw => RenderThrows
    case Returned(user) =>
      if !authenticated || user.None? then Redirect(StudentLoginPath)
      else
        var t := user.value.userType;
        if allowedRoles.Some? && !RoleListed(t, allowedRoles.value) then
          if t == Some(Student) then Redirect(StudentHomePath)
          else if t == Some(Teacher) then Redirect(TeacherHomePath)
          else Redirect(StudentLoginPath)
        else Allow
  }

  /** A signed-in user whose role is not listed is sent to that role's own home, or to the
      student login when the role is neither STUDENT nor TEACHER or is missing. */
  lemma UnlistedRoleRedirects(st: Storage, roles: seq<Role>, u: User)
    requires IsAuthenticated(st) && GetCurrentUser(st) == Returned(Some(u))
    requires !RoleListed(u.userType, roles)
    ensures u.userType == Some(Student) ==> Guard(st, Some(roles)) == Redirect(StudentHomePath)
    ensures u.userType == Some(Teacher) ==> Guard(st, Some(roles)) == Redirect(TeacherHomePath)
    ensures u.userType !in {Some(Student), Some(Teacher)} ==> Guard(st, Some(roles)) == Redirect(StudentLoginPath)
  {
  }

  /** An empty but present role list turns every signed-in user away. */
  lemma EmptyListDeniesEveryone(st: Storage)
    requires IsAuthenticated(st) && GetCurrentUser(st).Returned? && GetCurrentUser(st).value.Some?
    ensures Guard(st, Some([])).Redirect?
  {
  }

  /** With no role list, a signed-in user is admitted even without a `userType`. */
  lemma AbsentListAdmitsAnyUser(st: Storage, u: User)
    requires IsAuthenticated(st) && GetCurrentUser(st) == Returned(Some(u))
    ensures Guard(st, None) == Allow
  {
  }

  /** The session written by a successful login, for a TEACHER, on a STUDENT-only route, goes
      to the teacher's home and never passes. */
  lemma TeacherOnStudentRoute(st: Storage, resp: LoginResponse)
    requires Truthy(resp.token) && resp.user.Some? && resp.user.value.userType == Some(Teacher)
    ensures Guard(Login(st, Ok(resp)).storage, Some([Student])) == Redirect(TeacherHomePath)
  {
    LoginThenCurrentUser(st, resp);
  }

  /** After logout, every guarded route sends the visitor to the student login. */
  lemma LoggedOutGoesToLogin(st: Storage, roles: Option<seq<Role>>)
    ensures Guard(Logout(st), roles) == Redirect(StudentLoginPath)
  {
    LogoutClears(st);
  }
}

=== FILE: register_pages.dfy ===
/** The submit handlers of the two registration pages (frontend/stde-app/src/pages/StudentRegister.jsx
    and TeacherRegister.jsx): password checks, then `authService.register`. */
module RegisterPages {
  import opened Wrappers
  import opened AuthService

  const MinPasswordLength: nat := 6

  const StudentMismatch: string := "Passwords do not match."
  const StudentTooShort: string := "Password must be at least 6 characters long."
  const StudentFailed: string := "Registration failed. Please try again."
  const TeacherMismatch: string := "Passwords do not match!"
  const TeacherTooShort: string := "Password must be at least 6 characters long"
  const TeacherFallback: string := "Registration failed. Please try again."

  const StudentLoginPath: string := "/login/student"
  const TeacherLoginPath: string := "/login/teacher"

  datatype StudentForm = StudentForm(firstName: string, lastName: string, email: string, password: string, confirmPassword: string)

  /** `employeeId` and `department` are collected by the page but never sent. */
  datatype TeacherForm = TeacherForm(firstName: string, lastName: string, email: string, employeeId: string,
                                     department: string, password: string, confirmPassword: string)

  /** The page once the handler has finished; `sent` is the payload posted, if register was called. */
  datatype RegisterView = RegisterView(error: string, loading: bool, navigateTo: Option<string>, sent: Option<RegisterPayload>)

  /** The two checks, mismatch first, then length. */
  function PasswordProblem(password: string, confirm: string, mismatch: string, tooShort: string): (r: Option<string>)
    ensures password != confirm ==> r == Some(mismatch)
    ensures password == confirm && |password| < MinPasswordLength ==> r == Some(tooShort)
    ensures r.None? <==> password == confirm && |password| >= MinPasswordLength
  {
    if password != confirm then Some(mismatch)
    else if |password| < MinPasswordLength then Some(tooShort)
    else None
  }

  /** The object StudentRegister passes to `authService.register`. */
  function StudentData(f: StudentForm): map<string, string> {
    map["firstname" := f.firstName, "lastname" := f.lastName, "email" := f.email,
        "password" := f.password, "userType" := "STUDENT"]
  }

  /** StudentRegister `handleSubmit`. A failed check leaves `loading` as it was and calls nothing. */
  function StudentRegisterSubmit(f: StudentForm, loading: bool, reply: Reply<()>): (v: RegisterView)
    ensures f.password != f.confirmPassword ==> v == RegisterView(StudentMismatch, loading, None, None)
    ensures f.password == f.confirmPassword && |f.password| < MinPasswordLength ==>
              v == RegisterView(StudentTooShort, loading, None, None)
    ensures v.sent.Some? <==> f.password == f.confirmPassword && |f.password| >= MinPasswordLength
    ensures v.sent.Some? ==>
              && v.sent.value.firstname == Some(f.firstName) && v.sent.value.lastname == Some(f.lastName)
              && v.sent.value.email == Some(f.email) && v.sent.value.password == Some(f.password)
              && v.sent.value.userType == "STUDENT" && !v.loading
              && (v.navigateTo == Some(StudentLoginPath) <==> reply.Ok?)
              && (reply.Fail? ==> v.error == StudentFailed && v.navigateTo == None)
  {
    match PasswordProblem(f.password, f.confirmPassword, StudentMismatch, StudentTooShort)
    case Some(e) => RegisterView(e, loading, None, None)
    case None =>
      var step := Register(StudentData(f), reply);
      match step.outcome
      case Success(_) => RegisterView("", false, Some(StudentLoginPath), Some(step.payload))
      case Failure(_) => RegisterView(StudentFailed, false, None, Some(step.payload))
  }

  /** The object TeacherRegister passes: its name keys are `firstName` and `familyName`. */
  function TeacherData(f: TeacherForm): map<string, string> {
    map["firstName" := f.firstName, "familyName" := f.lastName, "email" := f.email,
        "password" := f.password, "userType" := "TEACHER"]
  }

  /** TeacherRegister `handleSubmit`, as written. On failure it shows the thrown value
      (`err || fallback`); the service never throws an empty value. */
  function TeacherRegisterSubmit(f: TeacherForm, loading: bool, reply: Reply<()>): (v: RegisterView)
    ensures f.password != f.confirmPassword ==> v == RegisterView(TeacherMismatch, loading, None, None)
    ensures f.password == f.confirmPassword && |f.password| < MinPasswordLength ==>
              v == RegisterView(TeacherTooShort, loading, None, None)
    ensures v.sent.Some? <==> f.password == f.confirmPassword && |f.password| >= MinPasswordLength
    ensures v.sent.Some? ==>
              && v.sent.value.userType == "TEACHER" && v.sent.value.email == Some(f.email)
              && v.sent.value.password == Some(f.password) && !v.loading
              && (v.navigateTo == Some(TeacherLoginPath) <==> reply.Ok?)
              && (reply.Fail? ==> v.error == OrElse(reply.message, "Registration failed") && v.navigateTo == None)
  {
    match PasswordProblem(f.password, f.confirmPassword, TeacherMismatch, TeacherTooShort)
    case Some(e) => RegisterView(e, loading, None, None)
    case None =>
      var step := Register(TeacherData(f), reply);
      match step.outcome
      case Success(_) => RegisterView("", false, Some(TeacherLoginPath), Some(step.payload))
      case Failure(thrown) => RegisterView(OrElse(Some(thrown), TeacherFallback), false, None, Some(step.payload))
  }

  /** Registering a teacher sends no names at all: the page's keys are not the ones the
      service reads. Whatever the employee id and department, the payload is the same. */
  lemma TeacherNamesAreLost(f: TeacherForm, loading: bool, reply: Reply<()>)
    requires f.password == f.confirmPassword && |f.password| >= MinPasswordLength
    ensures TeacherRegisterSubmit(f, loading, reply).sent.Some?
    ensures TeacherRegisterSubmit(f, loading, reply).sent.value.firstname == None
    ensures TeacherRegisterSubmit(f, loading, reply).sent.value.lastname == None
    ensures forall e, d :: TeacherRegisterSubmit(f.(employeeId := e, department := d), loading, reply) ==
                           TeacherRegisterSubmit(f, loading, reply)
  {
  }

  /** The teacher page's own fallback text is never the reason shown for a failed
      registration unless the server itself sent that text: what is shown is always the
      service's thrown message. */
  lemma TeacherFailureShowsServiceMessage(f: TeacherForm, loading: bool, msg: Option<string>)
    requires f.password == f.confirmPassword && |f.password| >= MinPasswordLength
    ensures TeacherRegisterSubmit(f, loading, Fail(msg)).error == OrElse(msg, "Registration failed")
    ensures TeacherRegisterSubmit(f, loading, Fail(msg)).error == TeacherFallback ==> msg == Some(TeacherFallback)
  {
  }

  /** The object TeacherRegister evidently meant to pass: the keys the service reads. */
  function TeacherDataIntended(f: TeacherForm): map<string, string> {
    map["firstname" := f.firstName, "lastname" := f.lastName, "email" := f.email,
        "password" := f.password, "userType" := "TEACHER"]
  }

  /** TeacherRegister `handleSubmit` with the intended payload keys. */
  function TeacherRegisterSubmitIntended(f: TeacherForm, loading: bool, reply: Reply<()>): (v: RegisterView)
    ensures v.sent.Some? <==> f.password == f.confirmPassword && |f.password| >= MinPasswordLength
    ensures v.sent.Some? ==>
              && v.sent.value.firstname == Some(f.firstName) && v.sent.value.lastname == Some(f.lastName)
              && v.sent.value.userType == "TEACHER"
    ensures v.error == TeacherRegisterSubmit(f, loading, reply).error
    ensures v.navigateTo == TeacherRegisterSubmit(f, loading, reply).navigateTo
  {
    match PasswordProblem(f.password, f.confirmPassword, TeacherMismatch, TeacherTooShort)
    case Some(e) => RegisterView(e, loading, None, None)
    case None =>
      var step := Register(TeacherDataIntended(f), reply);
      match step.outcome
      case Success(_) => RegisterView("", false, Some(TeacherLoginPath), Some(step.payload))
      case Failure(thrown) => RegisterView(OrElse(Some(thrown), TeacherFallback), false, None, Some(step.payload))
  }
}

=== FILE: strings.dfy ===
/** The string operations the source relies on, with the JavaScript and Java semantics kept apart:
    JavaScript `String.replace` with a string pattern replaces the FIRST occurrence only, while
    Java `String.replace` replaces EVERY non-overlapping occurrence, scanning left to right. */
module Strings {
  import opened Wrappers

  /** Java `startsWith`. */
  predicate StartsWith(s: string, prefix: string) {
    |prefix| <= |s| && s[..|prefix|] == prefix
  }

  lemma ConcatStartsWith(a: string, b: string)
    ensures StartsWith(a + b, a)
  {
    assert (a + b)[..|a|] == a;
  }

  /** `pat` occurs in `s` starting at index `i`. */
  predicate OccursAt(s: string, pat: string, i: int) {
    0 <= i && i + |pat| <= |s| && s[i..i + |pat|] == pat
  }

  lemma OccursAtShift(s: string, pat: string, k: int)
    requires |s| > 0 && k >= 0
    ensures OccursAt(s[1..], pat, k) <==> OccursAt(s, pat, k + 1)
  {
    if 0 <= k && k + |pat| <= |s| - 1 {
      assert s[1..][k..k + |pat|] == s[k + 1..k + 1 + |pat|];
    }
  }

  /** Index of the first occurrence of `pat` in `s` (JavaScript `indexOf`, Java `indexOf`). */
  function IndexOf(s: string, pat: string): (r: Option<nat>)
    ensures r.Some? ==> OccursAt(s, pat, r.value)
    ensures r.Some? ==> forall j :: 0 <= j < r.value ==> !OccursAt(s, pat, j)
    ensures r.None? ==> forall j :: !OccursAt(s, pat, j)
    decreases |s|
  {
    if StartsWith(s, pat) then Some(0)
    else if |s| == 0 then None
    else
      var rest := IndexOf(s[1..], pat);
      forall j | j >= 1 ensures OccursAt(s, pat, j) <==> OccursAt(s[1..], pat, j - 1) {
        OccursAtShift(s, pat, j - 1);
      }
      assert !OccursAt(s, pat, 0);
      match rest
      case Some(k) => Some(k + 1)
      case None => None
  }

  /** JavaScript `includes`, Java `contains`. */
  predicate Contains(s: string, pat: string) {
    IndexOf(s, pat).Some?
  }

  /** `Contains` agrees with the positional definition of an occurrence. */
  lemma ContainsIffOccurs(s: string, pat: string)
    ensures Contains(s, pat) <==> exists i :: OccursAt(s, pat, i)
  {
    if Contains(s, pat) {
      assert OccursAt(s, pat, IndexOf(s, pat).value);
    }
  }

  lemma PrefixOccurs(s: string, pat: string)
    requires StartsWith(s, pat)
    ensures Contains(s, pat)
  {
    assert OccursAt(s, pat, 0);
  }

  /** Absence of a character read off the indices; on a literal the solver reaches this far
      more cheaply than the membership itself. */
  lemma AbsentByIndex(s: string, c: char)
    requires forall i | 0 <= i < |s| :: s[i] != c
    ensures c !in s
  {
  }

  /** A string that lacks the first character of a non-empty pattern cannot contain it. */
  lemma {:induction false} MissingHeadNotContained(s: string, pat: string)
    requires |pat| > 0 && pat[0] !in s
    ensures !Contains(s, pat)
    decreases |s|
  {
    if |s| > 0 {
      assert s[0] != pat[0];
      assert |pat| <= |s| ==> s[..|pat|][0] == s[0];
      assert !StartsWith(s, pat);
      MissingHeadNotContained(s[1..], pat);
      assert IndexOf(s[1..], pat).None?;
    }
  }

  /** An occurrence of a pattern is an occurrence of each of its suffixes. */
  lemma ContainsSuffixOfPattern(s: string, pat: string, k: nat)
    requires k <= |pat| && Contains(s, pat)
    ensures Contains(s, pat[k..])
  {
    var i := IndexOf(s, pat).value;
    assert s[i + k..i + |pat|] == s[i..i + |pat|][k..];
    assert OccursAt(s, pat[k..], i + k);
    ContainsIffOccurs(s, pat[k..]);
  }

  /** An occurrence of a pattern is an occurrence of each of its prefixes. */
  lemma ContainsPrefixOfPattern(s: string, pat: string, k: nat)
    requires k <= |pat| && Contains(s, pat)
    ensures Contains(s, pat[..k])
  {
    var i := IndexOf(s, pat).value;
    assert s[i..i + k] == s[i..i + |pat|][..k];
    assert OccursAt(s, pat[..k], i);
    ContainsIffOccurs(s, pat[..k]);
  }

  /** No occurrence can start inside a prefix that lacks the pattern's first character. */
  lemma {:induction false} NotContainedAfterFreePrefix(a: string, b: string, pat: string)
    requires |pat| > 0 && pat[0] !in a && !Contains(b, pat)
    ensures !Contains(a + b, pat)
    decreases |a|
  {
    if |a| == 0 {
      assert a + b == b;
    } else {
      var s := a + b;
      assert s[0] == a[0];
      assert |pat| <= |s| ==> s[..|pat|][0] == s[0];
      assert !StartsWith(s, pat);
      assert s[1..] == a[1..] + b;
      NotContainedAfterFreePrefix(a[1..], b, pat);
    }
  }

  /** A string that does not start with the pattern, and whose tail lacks it, lacks it. */
  lemma NotContainedPastHead(s: string, pat: string)
    requires |s| > 0 && !StartsWith(s, pat) && !Contains(s[1..], pat)
    ensures !Contains(s, pat)
  {
  }

  /** A head that does not start the pattern, followed by text free of the pattern's first
      character, adds no occurrence to what follows. */
  lemma NotContainedPastHeadAndFreeText(a: string, m: string, pat: string)
    requires |a| > 0 && |pat| > 0 && !StartsWith(a + m, pat) && pat[0] !in a[1..] && !Contains(m, pat)
    ensures !Contains(a + m, pat)
  {
    assert (a + m)[1..] == a[1..] + m;
    NotContainedAfterFreePrefix(a[1..], m, pat);
    NotContainedPastHead(a + m, pat);
  }

  /** JavaScript `s.replace(pat, rep)` with a string pattern: only the first occurrence changes. */
  function ReplaceFirst(s: string, pat: string, rep: string): (r: string)
    ensures !Contains(s, pat) ==> r == s
    ensures StartsWith(s, pat) ==> r == rep + s[|pat|..]
  {
    match IndexOf(s, pat)
    case Some(i) => s[..i] + rep + s[i + |pat|..]
    case None => s
  }

  /** Java `s.replace(pat, rep)`: every non-overlapping occurrence, left to right.
      Every caller in the source passes a non-empty literal pattern. */
  function ReplaceAll(s: string, pat: string, rep: string): (r: string)
    requires |pat| > 0
    decreases |s|
  {
    if |s| < |pat| then s
    else if s[..|pat|] == pat then rep + ReplaceAll(s[|pat|..], pat, rep)
    else [s[0]] + ReplaceAll(s[1..], pat, rep)
  }

  /** Without an occurrence of the pattern, nothing is replaced. */
  lemma {:induction false} ReplaceAllAbsent(s: string, pat: string, rep: string)
    requires |pat| > 0 && !Contains(s, pat)
    ensures ReplaceAll(s, pat, rep) == s
    decreases |s|
  {
    if |s| >= |pat| {
      assert !StartsWith(s, pat);
      ReplaceAllAbsent(s[1..], pat, rep);
      assert [s[0]] + s[1..] == s;
    }
  }

  /** A leading occurrence is replaced and the scan resumes right after it. */
  lemma ReplaceAllLeading(pat: string, t: string, rep: string)
    requires |pat| > 0
    ensures ReplaceAll(pat + t, pat, rep) == rep + ReplaceAll(t, pat, rep)
  {
    assert (pat + t)[..|pat|] == pat;
    assert (pat + t)[|pat|..] == t;
  }

  lemma ReplaceAllSkip(c: char, u: string, pat: string, rep: string)
    requires |pat| > 0 && c != pat[0]
    ensures ReplaceAll([c] + u, pat, rep) == [c] + ReplaceAll(u, pat, rep)
  {
    var s := [c] + u;
    assert s[1..] == u;
    if |s| < |pat| {
      assert ReplaceAll(u, pat, rep) == u;
    } else {
      assert s[..|pat|][0] == c;
    }
  }

  /** A prefix free of the pattern's first character passes through unchanged. */
  lemma {:induction false} ReplaceAllFreePrefix(a: string, t: string, pat: string, rep: string)
    requires |pat| > 0 && pat[0] !in a
    ensures ReplaceAll(a + t, pat, rep) == a + ReplaceAll(t, pat, rep)
    decreases |a|
  {
    if |a| == 0 {
      assert a + t == t;
    } else {
      var c, u := a[0], a[1..];
      var r := ReplaceAll(t, pat, rep);
      assert a == [c] + u;
      assert c != pat[0] && pat[0] !in u;
      ReplaceAllFreePrefix(u, t, pat, rep);
      assert a + t == [c] + (u + t);
      ReplaceAllSkip(c, u + t, pat, rep);
      assert a + r == [c] + (u + r);
    }
  }

  /** JavaScript `s.split(sep)` for a one-character separator. */
  function Split(s: string, sep: char): (r: seq<string>)
    ensures |r| >= 1
    decreases |s|
  {
    if |s| == 0 then [""]
    else if s[0] == sep then [""] + Split(s[1..], sep)
    else
      var rest := Split(s[1..], sep);
      [[s[0]] + rest[0]] + rest[1..]
  }

  /** JavaScript `pieces.join(sep)`. */
  function Join(pieces: seq<string>, sep: char): string
    decreases |pieces|
  {
    if |pieces| == 0 then ""
    else if |pieces| == 1 then pieces[0]
    else pieces[0] + [sep] + Join(pieces[1..], sep)
  }

  /** Splitting loses nothing: the pieces join back to the input. */
  lemma {:induction false} SplitJoin(s: string, sep: char)
    ensures Join(Split(s, sep), sep) == s
    decreases |s|
  {
    if |s| > 0 {
      SplitJoin(s[1..], sep);
      var rest := Split(s[1..], sep);
      var r := Split(s, sep);
      if s[0] == sep {
        assert r == [""] + rest && r[1..] == rest;
        assert Join(r, sep) == "" + [sep] + Join(rest, sep);
      } else if |rest| == 1 {
        assert r == [[s[0]] + rest[0]];
        assert Join(r, sep) == [s[0]] + rest[0];
      } else {
        assert r == [[s[0]] + rest[0]] + rest[1..] && r[1..] == rest[1..];
        assert Join(rest, sep) == rest[0] + [sep] + Join(rest[1..], sep);
        assert Join(r, sep) == [s[0]] + rest[0] + [sep] + Join(rest[1..], sep);
      }
      assert [s[0]] + s[1..] == s;
    }
  }

  /** No piece of a split holds the separator. */
  lemma {:induction false} SplitPiecesLackSeparator(s: string, sep: char)
    ensures forall k :: 0 <= k < |Split(s, sep)| ==> sep !in Split(s, sep)[k]
    decreases |s|
  {
    if |s| > 0 {
      SplitPiecesLackSeparator(s[1..], sep);
      var rest := Split(s[1..], sep);
      var r := Split(s, sep);
      if s[0] != sep {
        assert r == [[s[0]] + rest[0]] + rest[1..];
        forall k | 0 <= k < |r| ensures sep !in r[k] {
          if k == 0 {
            assert sep !in rest[0];
          } else {
            assert r[k] == rest[k];
          }
        }
      }
    }
  }

  /** Splitting a string made of separator-free pieces gives the pieces back. */
  lemma {:induction false} SplitOfJoin(a: string, b: string, sep: char)
    requires sep !in a && sep !in b
    ensures Split(a + [sep] + b, sep) == [a, b]
    decreases |a|
  {
    if |a| == 0 {
      assert a + [sep] + b == [sep] + b;
      assert ([sep] + b)[1..] == b;
      SplitNoSeparator(b, sep);
    } else {
      var s := a + [sep] + b;
      assert s[0] == a[0];
      assert s[1..] == a[1..] + [sep] + b;
      SplitOfJoin(a[1..], b, sep);
      assert [a[0]] + a[1..] == a;
    }
  }

  lemma {:induction false} SplitNoSeparator(s: string, sep: char)
    requires sep !in s
    ensures Split(s, sep) == [s]
    decreases |s|
  {
    if |s| > 0 {
      SplitNoSeparator(s[1..], sep);
      assert [s[0]] + s[1..] == s;
    }
  }

  /** Lower-cases ASCII letters (Java `toLowerCase` on the characters this model uses). */
  function LowerChar(c: char): char {
    if 'A' <= c <= 'Z' then (c as int + 32) as char else c
  }

  function ToLower(s: string): (r: string)
    ensures |r| == |s|
    ensures forall i :: 0 <= i < |s| ==> r[i] == LowerChar(s[i])
  {
    seq(|s|, i requires 0 <= i < |s| => LowerChar(s[i]))
  }

  lemma ToLowerConcat(a: string, b: string)
    ensures ToLower(a + b) == ToLower(a) + ToLower(b)
  {
    assert forall i :: 0 <= i < |a + b| ==> ToLower(a + b)[i] == (ToLower(a) + ToLower(b))[i] by {
      forall i | 0 <= i < |a + b| ensures ToLower(a + b)[i] == (ToLower(a) + ToLower(b))[i] {
        if i < |a| {
          assert (a + b)[i] == a[i];
        } else {
          assert (a + b)[i] == b[i - |a|];
        }
      }
    }
  }

  /** Lower-casing yields a character only from that character or its upper-case form. */
  lemma ToLowerAvoids(s: string, c: char)
    requires !('A' <= c <= 'Z') && c !in s
    requires 'a' <= c <= 'z' ==> (c as int - 32) as char !in s
    ensures c !in ToLower(s)
  {
    forall i | 0 <= i < |s| ensures ToLower(s)[i] != c {
      assert s[i] in s;
    }
  }

  /** Decimal text of a natural number (Java string concatenation of a `long`). */
  function NatToString(n: nat): (r: string)
    ensures |r| >= 1
    ensures forall i :: 0 <= i < |r| ==> '0' <= r[i] <= '9'
    decreases n
  {
    var digit := ['0' + (n % 10) as char];
    if n < 10 then digit else NatToString(n / 10) + digit
  }

  lemma NatToStringLacks(n: nat, c: char)
    requires !('0' <= c <= '9')
    ensures c !in NatToString(n)
  {
    var r := NatToString(n);
    forall i | 0 <= i < |r| ensures r[i] != c {
    }
  }
}

=== FILE: user_json.dfy ===
/** The three account roles, named as the backend's `UserType` enum names them. */
module Roles {
  import opened Wrappers

  datatype Role = Student | Teacher | Admin

  function FromName(s: string): Option<Role> {
    if s == "STUDENT" then Some(Student)
    else if s == "TEACHER" then Some(Teacher)
    else if s == "ADMIN" then Some(Admin)
    else None
  }

  /** The enum's `name()`; `FromName` reads it back. */
  function Name(r: Role): (s: string)
    ensures FromName(s) == Some(r)
    ensures '"' !in s && '\\' !in s
  {
    match r
    case Student => "STUDENT"
    case Teacher => "TEACHER"
    case Admin => "ADMIN"
  }
}

/** The user record the client keeps under the `user` storage key, and its text form.
    `JSON.stringify` / `JSON.parse` are modelled by an encoder that writes the record's
    fields as a JSON object (escaping `"` and `\` inside strings, omitting an absent
    `userType` the way `JSON.stringify` omits `undefined`) and a decoder that reads exactly
    that shape back. */
module UserJson {
  import opened Wrappers
  import opened Roles

  datatype User = User(id: string, firstname: string, lastname: string, email: string, userType: Option<Role>)

  /** JSON string escaping of the two characters that would end or break a string literal. */
  function Escape(s: string): string
    decreases |s|
  {
    if |s| == 0 then ""
    else if s[0] == '"' || s[0] == '\\' then ['\\', s[0]] + Escape(s[1..])
    else [s[0]] + Escape(s[1..])
  }

  /** A quoted JSON string: `"` + escaped text + `"`. */
  function Quoted(s: string): string {
    "\"" + Escape(s) + "\""
  }

  /** Reads the body of a string literal up to its unescaped closing quote; returns the
      unescaped text and what follows the quote. */
  function ReadBody(s: string): Option<(string, string)>
    decreases |s|
  {
    if |s| == 0 then None
    else if s[0] == '"' then Some(("", s[1..]))
    else if s[0] == '\\' then
      if |s| < 2 then None
      else match ReadBody(s[2..])
        case None => None
        case Some(p) => Some(([s[1]] + p.0, p.1))
    else match ReadBody(s[1..])
      case None => None
      case Some(p) => Some(([s[0]] + p.0, p.1))
  }

  function ReadQuoted(s: string): Option<(string, string)> {
    if |s| > 0 && s[0] == '"' then ReadBody(s[1..]) else None
  }

  /** Strips a literal prefix, failing when it is not there. */
  function Expect(s: string, prefix: string): (r: Option<string>)
    ensures r.Some? <==> |prefix| <= |s| && s[..|prefix|] == prefix
  {
    if |prefix| <= |s| && s[..|prefix|] == prefix then Some(s[|prefix|..]) else None
  }

  lemma ExpectPrefix(prefix: string, rest: string)
    ensures Expect(prefix + rest, prefix) == Some(rest)
  {
    assert (prefix + rest)[..|prefix|] == prefix;
    assert (prefix + rest)[|prefix|..] == rest;
  }

  /** How `Escape` writes one character. */
  function EscapedChar(c: char): string {
    if c == '"' || c == '\\' then ['\\', c] else [c]
  }

  /** Reading resumes after one escaped character as it would without it. */
  lemma ReadBodyPastChar(c: char, t: string, body: string, rest: string)
    requires ReadBody(t) == Some((body, rest))
    ensures ReadBody(EscapedChar(c) + t) == Some(([c] + body, rest))
  {
    var s := EscapedChar(c) + t;
    if c == '"' || c == '\\' {
      assert s[0] == '\\' && s[1] == c && s[2..] == t;
    } else {
      assert s[0] == c && s[1..] == t;
    }
  }

  /** Reading an escaped body stops exactly at the closing quote the escaper wrote. */
  lemma {:induction false} ReadBodyEscaped(x: string, rest: string)
    ensures ReadBody(Escape(x) + "\"" + rest) == Some((x, rest))
    decreases |x|
  {
    if |x| == 0 {
      assert Escape(x) + "\"" + rest == "\"" + rest;
      assert ("\"" + rest)[1..] == rest;
    } else {
      var t := Escape(x[1..]) + "\"" + rest;
      ReadBodyEscaped(x[1..], rest);
      assert Escape(x) == EscapedChar(x[0]) + Escape(x[1..]);
      assert Escape(x) + "\"" + rest == EscapedChar(x[0]) + t;
      ReadBodyPastChar(x[0], t, x[1..], rest);
      assert [x[0]] + x[1..] == x;
    }
  }

  lemma ReadQuotedRoundTrip(x: string, rest: string)
    ensures ReadQuoted(Quoted(x) + rest) == Some((x, rest))
  {
    var s := Quoted(x) + rest;
    assert s == "\"" + (Escape(x) + "\"" + rest);
    assert s[1..] == Escape(x) + "\"" + rest;
    ReadBodyEscaped(x, rest);
  }

  function TypeField(t: Option<Role>): string {
    match t
    case None => ""
    case Some(r) => ",\"userType\":" + Quoted(Name(r))
  }

  /** `JSON.stringify(user)`. */
  function Encode(u: User): string {
    "{\"id\":" + (Quoted(u.id) +
    (",\"firstname\":" + (Quoted(u.firstname) +
    (",\"lastname\":" + (Quoted(u.lastname) +
    (",\"email\":" + (Quoted(u.email) +
    (TypeField(u.userType) + "}"))))))))
  }

  function DecodeType(s: string): Option<Option<Role>> {
    if s == "}" then Some(None)
    else
      var r1 :- Expect(s, ",\"userType\":");
      var p :- ReadQuoted(r1);
      if p.1 != "}" then None
      else
        var role :- FromName(p.0);
        Some(Some(role))
  }

  /** `JSON.parse(text)` for text of the user-record shape; any other text fails. */
  function Decode(s: string): Option<User> {
    var r1 :- Expect(s, "{\"id\":");
    var p1 :- ReadQuoted(r1);
    var r2 :- Expect(p1.1, ",\"firstname\":");
    var p2 :- ReadQuoted(r2);
    var r3 :- Expect(p2.1, ",\"lastname\":");
    var p3 :- ReadQuoted(r3);
    var r4 :- Expect(p3.1, ",\"email\":");
    var p4 :- ReadQuoted(r4);
    var t :- DecodeType(p4.1);
    Some(User(p1.0, p2.0, p3.0, p4.0, t))
  }

  lemma DecodeTypeRoundTrip(t: Option<Role>)
    ensures DecodeType(TypeField(t) + "}") == Some(t)
  {
    match t
    case None =>
      assert TypeField(t) + "}" == "}";
    case Some(r) =>
      var s := TypeField(t) + "}";
      assert s == ",\"userType\":" + (Quoted(Name(r)) + "}");
      ExpectPrefix(",\"userType\":", Quoted(Name(r)) + "}");
      ReadQuotedRoundTrip(Name(r), "}");
  }

  /** The stored text of a user reads back as the same user (`JSON.parse(JSON.stringify(u))`). */
  lemma {:induction false} DecodeEncode(u: User)
    ensures Decode(Encode(u)) == Some(u)
  {
    var tail4 := TypeField(u.userType) + "}";
    var tail3 := ",\"email\":" + (Quoted(u.email) + tail4);
    var tail2 := ",\"lastname\":" + (Quoted(u.lastname) + tail3);
    var tail1 := ",\"firstname\":" + (Quoted(u.firstname) + tail2);
    assert Encode(u) == "{\"id\":" + (Quoted(u.id) + tail1);
    ExpectPrefix("{\"id\":", Quoted(u.id) + tail1);
    ReadQuotedRoundTrip(u.id, tail1);
    ExpectPrefix(",\"firstname\":", Quoted(u.firstname) + tail2);
    ReadQuotedRoundTrip(u.firstname, tail2);
    ExpectPrefix(",\"lastname\":", Quoted(u.lastname) + tail3);
    ReadQuotedRoundTrip(u.lastname, tail3);
    ExpectPrefix(",\"email\":", Quoted(u.email) + tail4);
    ReadQuotedRoundTrip(u.email, tail4);
    DecodeTypeRoundTrip(u.userType);
  }

  /** The text of a user record is never one of the JavaScript sentinels `JSON.parse` treats
      specially here: it is non-empty and is neither "null" nor "undefined". */
  lemma EncodeNotSentinel(u: User)
    ensures Encode(u) != "" && Encode(u) != "null" && Encode(u) != "undefined"
    ensures Encode(u)[0] == '{'
  {
  }
}

=== FILE: wrappers.dfy ===
/** Failure-carrying datatypes shared by every module of the model.
- Option<T>: a value that may be absent (JavaScript `undefined`/`null`, Java `null`, an empty `Optional`)
- Result<T, E>: a call that returns a value or throws an error value
- Reply<T>: the answer of a remote collaborator reached over HTTP; on failure it carries the
  message the transport or the server put in the error, which may itself be absent
- Attempt<T>: a local JavaScript computation that either returns or throws (no message needed)
 */
module Wrappers {

  datatype Option<+T> = None | Some(value: T) {

    predicate IsFailure() {
      None?
    }

    function PropagateFailure<U>(): Option<U>
      requires None?
    {
      None
    }

    function Extract(): T
      requires Some?
    {
      value
    }

    /** The value, or `default` when absent. */
    function GetOr(default: T): T {
      match this
      case Some(v) => v
      case None => default
    }
  }

  datatype Result<+T, +E> = Success(value: T) | Failure(error: E) {

    /** The value, dropping the error. */
    function ToOption(): (r: Option<T>)
      ensures r.Some? <==> Success?
      ensures r.Some? ==> r.value == value
    {
      match this
      case Success(v) => Some(v)
      case Failure(_) => None
    }
  }

  datatype Reply<+T> = Ok(value: T) | Fail(message: Option<string>)

  datatype Attempt<+T> = Returned(value: T) | Threw

  /** JavaScript truthiness of a string that may be absent: `undefined`, `null` and "" are falsy. */
  predicate Truthy(v: Option<string>) {
    v.Some? && v.value != ""
  }

  /** JavaScript `v || fallback` for a string that may be absent. */
  function OrElse(v: Option<string>, fallback: string): (r: string)
    ensures Truthy(v) ==> r == v.value
    ensures !Truthy(v) ==> r == fallback
  {
    if Truthy(v) then v.value else fallback
  }
}
